=== FILE: README.md ===
# Genotype analysis scripts — a Dafny model

The repository prepares SNP genotype tables for population-structure analysis. Three scripts hold its logic. This project models that logic in Dafny and proves properties of it.

- **`scripts/amova_manual.py`** is a distance-based AMOVA. It:
  - drops loci that are missing in every sample;
  - fills each remaining gap with the locus mean;
  - builds the Euclidean distance matrix between samples;
  - assigns each sample to `Grupo1` (numbers 101–114) or `Grupo2` (115–129) by the first run of digits in its name;
  - splits the sum of squared distance deviations into SS_total, SS_within and SS_between, and reports ΦST = SS_between / SS_total;
  - reports a p-value: the share of label permutations whose ΦST is at least the observed one.
- **`scripts/crear_str_desde_1row_filtrado.py`** turns one row of 0/1/2 dosages per locus into a STRUCTURE file. Each sample gets two lines, and each dosage becomes a pair of alleles.
- **`scripts/crear_str_desde_2row.py`** turns a file with two rows per locus (first and second allele) into the same STRUCTURE layout. It rejects an odd number of rows.

The input of every script is modelled as an already-parsed table: a header and rows of `Option` cells, where `None` is a missing cell ("-"). Values are exact reals.

Modules:
- `Wrappers`: `Option` and `Result`.
- `Decimal`: digits, integer text and `int()` truncation.
- `Masks`: boolean selection.
- `Table`: the parsed CSV, column choice and the all-missing row filter.
- `Sums`: sums, means and squared deviations.
- `Imputation`.
- `Distance`.
- `Groups`: the label classifier.
- `Partition`: blocks, SS_total, SS_within and ΦST.
- `Permutation`: the shuffle and the p-value.
- `Amova`: the AMOVA pipeline end to end.
- `StructureRows`: the shared two-lines-per-sample layout.
- `OneRow`: the dosage encoder.
- `TwoRow`: the two-row converter.

Where the model makes choices:
- **sqrt is a parameter.** Exact reals have no computable square root, so the distance matrix takes it as a function argument. The degenerate-case lemmas assume only that it is zero exactly at zero (`Distance.RootOfZero`).
- **The shuffle takes its random draws as input.** `rng.permutation` is a Fisher–Yates shuffle. Position `i` is swapped with a drawn position `j <= i`, from the last position down. The draws come from the seeded generator, so the model takes one list of draws per permutation.
- **An undefined ΦST is `None`.** The script divides by SS_total without a guard (lines 74 and 91). When SS_total is 0 numpy yields NaN and the script carries on. The model writes that NaN as `None`. Any comparison with NaN is false, so the p-value is then 0. `Amova.UndefinedPhi` states when ΦST is undefined: after imputation, all samples have identical genotypes. It also states that the p-value is then 0.
- **SS sums cover the whole block.** `np.mean` and `np.sum` run over the full n×n matrix and each full group block, both triangles and the zero diagonal included. The model does the same (`Partition.Flatten`, `Partition.SubMatrix`).

## Model

| member | source | states |
|---|---|---|
| Table.AfterFirstColumn | scripts/amova_manual.py:24 | the AMOVA samples are every column after the first, whatever its name, in order |
| Amova.Samples | scripts/amova_manual.py:24 | the sample names are the header names from the second column on, one per sample column |
| Table.NonMarkColumns | scripts/crear_str_desde_1row_filtrado.py:33 | the converters' sample columns are exactly the columns not named "Mark", in their original order |
| Table.Project | scripts/amova_manual.py:26 | `df[samples]` keeps every row and gives it one cell per chosen column, the cell of that column |
| Table.ObservedMask | scripts/amova_manual.py:27 | the row mask is true exactly for rows with at least one non-missing cell |
| Table.DropMissingRows | scripts/amova_manual.py:26-28 | the filter keeps exactly the rows with an observed cell, in their original order, and never adds rows |
| Masks.KeptIndices | scripts/amova_manual.py:28 | the positions a mask keeps, strictly increasing, all in range, all marked, and every marked position among them |
| Masks.Select | scripts/amova_manual.py:28 | boolean indexing yields as many elements as the mask marks, never more than the input |
| Masks.SelectIndex | scripts/amova_manual.py:28 | the k-th selected element is the element at the k-th marked position, so order is preserved |
| Masks.SelectMembers | scripts/amova_manual.py:28 | every element at a marked position survives the selection, and only such elements do |
| Amova.Grid | scripts/amova_manual.py:26 | the genotype grid has one row per locus and one cell per sample, the cell of column k + 1 |
| Amova.Genotypes | scripts/amova_manual.py:26-37 | the matrix entering the distance step has exactly the observed loci, a value for every sample, the observed cells unchanged, and each missing cell set to its locus's observed mean |
| Imputation.ObservedMean | scripts/amova_manual.py:34 | `np.nanmean` of a row is the value whose one copy per observed cell adds up to the observed cells' sum |
| Imputation.ObservedCount | scripts/amova_manual.py:34 | a row has a positive number of observed cells exactly when it is not all-missing, so its nanmean is defined |
| Imputation.Missing | scripts/amova_manual.py:36 | the missing cells of a row are those not counted as observed |
| Imputation.ImputeRow | scripts/amova_manual.py:34-37 | after imputation no cell is missing, observed cells keep their values, and every filled cell equals the locus's observed mean |
| Imputation.Impute | scripts/amova_manual.py:34-37 | the imputed matrix has the input's shape, with observed cells unchanged and every missing cell set to its own locus's observed mean |
| Imputation.FillSum | scripts/amova_manual.py:34-37 | filling adds the fill value once per missing cell to the observed sum |
| Imputation.ImputeKeepsMean | scripts/amova_manual.py:34-37 | mean imputation leaves the locus mean unchanged: the completed row's mean is the mean of its observed cells |
| Distance.SqDist | scripts/amova_manual.py:39 | the squared Euclidean distance of two samples over the loci is never negative |
| Distance.SqDistSymmetric | scripts/amova_manual.py:39 | the squared distance does not depend on the order of the two samples |
| Distance.SqDistZero | scripts/amova_manual.py:39 | two samples are at distance zero exactly when they agree at every locus |
| Distance.DistanceMatrix | scripts/amova_manual.py:39-40 | the distance matrix is n×n, with a zero diagonal, symmetric, and each off-diagonal entry is the root of the summed squared locus differences |
| Distance.ZeroDistancesIff | scripts/amova_manual.py:39-40 | all distances vanish exactly when every sample has the same genotype at every locus |
| Decimal.DigitsValue | scripts/amova_manual.py:47 | `int` of a digit run ignores a leading zero: "0" followed by a run has the run's value |
| Decimal.NatToString | scripts/crear_str_desde_2row.py:71 | `str` of a natural number is non-empty digits without a leading zero, whose value is the number |
| Decimal.IntToString | scripts/crear_str_desde_2row.py:71 | `str` of an integer is canonical: digits without a leading zero (except "0") for non-negative values, and "-" followed by such digits, not starting with "0", for negative ones |
| Decimal.ParseIntToString | scripts/crear_str_desde_2row.py:71 | the text of an integer reads back as that integer |
| Decimal.IntToStringInjective | scripts/crear_str_desde_2row.py:71 | distinct integers have distinct texts |
| Decimal.Trunc | scripts/crear_str_desde_1row_filtrado.py:66 | `int(x)` gives the integer part, rounding toward zero, for both signs |
| Decimal.TruncProperties | scripts/crear_str_desde_1row_filtrado.py:66 | truncation keeps whole numbers and is odd-symmetric, unlike the floor |
| Groups.RunEnd | scripts/amova_manual.py:44 | a digit run extends to the first non-digit or the end of the name |
| Groups.FirstDigitRun | scripts/amova_manual.py:44 | `re.search(r"(\d+)")` fails exactly on names without digits, and otherwise finds the first maximal digit run |
| Groups.FirstDigitRunUnique | scripts/amova_manual.py:44 | a name has only one first maximal digit run |
| Groups.LabelNumber | scripts/amova_manual.py:44-47 | the sample's number is absent exactly when the name has no digit, and otherwise is the decimal value of its first maximal digit run |
| Groups.Classify | scripts/amova_manual.py:44-54 | a name is in Grupo1 exactly when its number is in 101–114 and in Grupo2 exactly when it is in 115–129; no number, or a number in neither range, is an error naming the name |
| Groups.AssignGroups | scripts/amova_manual.py:42-56 | labelling succeeds exactly when every name classifies, giving each sample its group in order; otherwise it reports the first failing name's error |
| Sums.Mean | scripts/amova_manual.py:63 | `np.mean` of a non-empty sequence is the value whose one copy per element adds up to the sum |
| Sums.MeanConstant | scripts/amova_manual.py:63 | the mean of a non-empty run of equal values is that value |
| Sums.DevAppend | scripts/amova_manual.py:64 | squared deviations add up over the concatenation of two groups of values |
| Sums.DevExpand | scripts/amova_manual.py:64 | the squared deviations about any centre depend only on the count, the sum and the sum of squares |
| Sums.MeanMinimizes | scripts/amova_manual.py:70-71 | the mean is the centre with the least squared deviation: about any other centre the sum of squares can only grow |
| Sums.DevZero | scripts/amova_manual.py:64 | a sum of squared deviations vanishes exactly when every value equals the centre |
| Partition.SelectRowsIndex | scripts/amova_manual.py:69 | the k-th row of a row-and-column selection is the k-th kept row cut down to the kept columns |
| Partition.SubMatrix | scripts/amova_manual.py:68-69 | `dist_mat[np.ix_(idx, idx)]` is square over the selected samples, with entry (a, b) the distance of the a-th and b-th selected samples |
| Partition.FlattenIndex | scripts/amova_manual.py:63-64 | numpy's reductions visit all rows·width entries in row-major order, with entry (a, b) at position a·width + b |
| Partition.SelectDevAtMost | scripts/amova_manual.py:69-71 | dropping values from a block cannot add to its squared deviations |
| Partition.BlockGrowth | scripts/amova_manual.py:69-71 | adding a selected row to the matrix adds exactly that row's selected entries to the block's squared deviations |
| Partition.DisjointRowsDev | scripts/amova_manual.py:67-71 | blocks of disjoint groups together deviate no more than the whole matrix about the same centre |
| Partition.Members | scripts/amova_manual.py:68 | `np.where(labels == g)` selects exactly the samples labelled g |
| Partition.SSTotal | scripts/amova_manual.py:63-64 | SS_total, the squared deviations of all n·n distances from the grand mean, is never negative |
| Partition.SSWithin | scripts/amova_manual.py:66-71 | SS_within, each group block's squared deviations from the block's own mean added over the groups, is never negative |
| Partition.OneGroupWithin | scripts/amova_manual.py:66-71 | when every sample has the same label, whichever group it is, SS_within equals SS_total: that group's block is the whole matrix and the other group adds nothing |
| Partition.OneGroupPhiZero | scripts/amova_manual.py:66-74 | with a single group, ΦST is 0 whenever it is defined |
| Partition.WithinAtMostTotal | scripts/amova_manual.py:63-73 | SS_within is non-negative and never exceeds SS_total |
| Partition.ZeroTotalEntries | scripts/amova_manual.py:63-64 | if SS_total vanishes and one entry is zero, every distance is zero |
| Partition.SSTotalZero | scripts/amova_manual.py:63-64 | with a zero diagonal, SS_total vanishes exactly when every distance is zero |
| Partition.PhiST | scripts/amova_manual.py:74 | ΦST is defined exactly when SS_total is non-zero, then lies in [0, 1] and times SS_total gives SS_between |
| Partition.Partitioned | scripts/amova_manual.py:73-74 | a partition built from valid sums is consistent: SS_between ≥ 0, SS_between + SS_within = SS_total, and ΦST is defined exactly when SS_total > 0 |
| Partition.Decompose | scripts/amova_manual.py:63-74 | for any labelling, SS_within lies between 0 and SS_total, SS_between + SS_within = SS_total, and ΦST is defined (in [0, 1]) exactly when SS_total > 0 |
| Partition.DecomposeExplains | scripts/amova_manual.py:73-74 | a labelling's ΦST times that labelling's SS_total is SS_total minus its SS_within |
| Permutation.Swap | scripts/amova_manual.py:81 | a swap exchanges two labels, leaves the rest in place and keeps the multiset of labels |
| Permutation.ShuffleSteps | scripts/amova_manual.py:81 | every run of Fisher–Yates steps keeps the length and the multiset of labels |
| Permutation.Shuffle | scripts/amova_manual.py:81 | a permuted labelling has the same multiset of labels as the true one |
| Permutation.IdentityDraws | scripts/amova_manual.py:81 | draws that pick each position itself leave the labelling unchanged |
| Permutation.MembersCount | scripts/amova_manual.py:85 | the size of a group is the number of times its label occurs |
| Permutation.ShuffleKeepsGroupSizes | scripts/amova_manual.py:81-86 | every permuted labelling has the true group sizes |
| Permutation.PermutedPhi | scripts/amova_manual.py:82-91 | a permuted ΦST reuses the observed SS_total and recomputes only SS_within for the shuffled labels: it is defined exactly when SS_total > 0, then lies in [0, 1] and times SS_total gives SS_total minus the shuffled SS_within |
| Permutation.PermutedStats | scripts/amova_manual.py:80-92 | `perm_stats` holds one permuted ΦST per permutation, in order |
| Permutation.CountAtLeast | scripts/amova_manual.py:95 | the number of permuted values at least the observed one equals the number of permutations exactly when all reach it, and is 0 exactly when none does |
| Permutation.CountAtLeastAppend | scripts/amova_manual.py:95 | the count over two runs of permutations is the sum of the two counts |
| Permutation.PValue | scripts/amova_manual.py:94-95 | the p-value times the number of permutations is the number of permuted ΦST values at least the observed one; it lies in [0, 1], is 1 exactly when every permuted ΦST is at least the observed one (ties count), is 0 exactly when none is, and is 0 when the observed ΦST is NaN |
| Amova.Amova | scripts/amova_manual.py:24-95 | results exist exactly when every name classifies, otherwise the first failing name's error; the partition is the labelling's own and consistent, the permuted values are the ΦST of each shuffle against the observed distance matrix, and the p-value is their share reaching the observed ΦST, in [0, 1] and 0 when ΦST is NaN |
| Amova.PhiUndefinedIff | scripts/amova_manual.py:39-74 | for any labelling ΦST is undefined exactly when all samples have identical genotypes |
| Amova.UndefinedPhi | scripts/amova_manual.py:26-95 | the script's ΦST is NaN exactly when all imputed samples are identical at every kept locus, and the p-value is then 0 |
| StructureRows.Meta | scripts/crear_str_desde_1row_filtrado.py:79 | every sample line starts with the name, four "0" fields and the population id "1" |
| StructureRows.EmitRows | scripts/crear_str_desde_1row_filtrado.py:79-84 | the output has two lines per sample in sample order: line 2j carries sample j's first alleles and line 2j + 1 its second alleles |
| StructureRows.ReadBack | scripts/crear_str_desde_1row_filtrado.py:79-84 | reading the output back, line k belongs to sample k / 2 and carries its first alleles on even lines and its second alleles on odd lines |
| OneRow.Encode | scripts/crear_str_desde_1row_filtrado.py:59-77 | each allele is "0", "1" or "-9"; one allele is "-9" exactly when the other is, exactly for a missing dosage or one truncating outside 0–2, and the first allele is "1" only for a homozygous alternative |
| OneRow.EncodeDosage | scripts/crear_str_desde_1row_filtrado.py:65-74 | counting "1" alleles gives back the truncated dosage when it is 0, 1 or 2, and nothing otherwise |
| OneRow.Column | scripts/crear_str_desde_1row_filtrado.py:54 | a sample's dosages are its cells at every kept locus, in locus order |
| OneRow.AlleleLines | scripts/crear_str_desde_1row_filtrado.py:56-77 | the two allele lists have one entry per locus, the pair at each locus being that locus's encoding |
| OneRow.KeptDosages | scripts/crear_str_desde_1row_filtrado.py:36-45 | the filtered grid keeps exactly the loci with an observed dosage, in file order, each with a cell per sample |
| OneRow.AlleleLinesRows | scripts/crear_str_desde_1row_filtrado.py:79-81 | the metadata followed by the allele lists forms a valid pair of sample lines |
| OneRow.Convert | scripts/crear_str_desde_1row_filtrado.py:33-84 | the output has 2 × samples lines, and both lines of sample j start with its metadata, have 6 + kept-loci fields, and hold the encoding of its dosage at each kept locus |
| TwoRow.Evens | scripts/crear_str_desde_2row.py:44 | the first-allele matrix is the rows at even positions |
| TwoRow.Odds | scripts/crear_str_desde_2row.py:45 | the second-allele matrix is the rows at odd positions |
| TwoRow.Interleave | scripts/crear_str_desde_2row.py:44-45 | putting allele rows back in the file's layout alternates first and second alleles locus by locus |
| TwoRow.SplitInterleave | scripts/crear_str_desde_2row.py:39-45 | for an even row count the two allele matrices have n_rows/2 loci each, and interleaving them rebuilds the file |
| TwoRow.InterleaveSplit | scripts/crear_str_desde_2row.py:44-45 | splitting interleaved rows gives back both allele matrices |
| TwoRow.LocusMask | scripts/crear_str_desde_2row.py:48-49 | a locus is kept exactly when some sample has an allele on either of its two rows |
| TwoRow.Render | scripts/crear_str_desde_2row.py:67-76 | a missing allele is written "-9", and an observed one as the canonical decimal text of its truncated value, `str(int(v))` |
| TwoRow.RenderParse | scripts/crear_str_desde_2row.py:67-76 | a written allele reads back as its truncated value, and "-9" is written exactly for a missing allele or the value -9 |
| TwoRow.AlleleLine | scripts/crear_str_desde_2row.py:60-76 | a sample's allele list holds the rendering of its cell at each kept locus, in order |
| TwoRow.KeptAlleles | scripts/crear_str_desde_2row.py:33-52 | an odd row count is an error; otherwise both matrices are filtered by the same mask, keeping locus pairs together and in order |
| TwoRow.Emit | scripts/crear_str_desde_2row.py:78-84 | line 2j holds only sample j's first alleles and line 2j + 1 only its second alleles, both after its metadata |
| TwoRow.Convert | scripts/crear_str_desde_2row.py:31-84 | conversion fails exactly for an odd row count; otherwise it writes 2 × samples lines, each sample's first line with its allele-1 values and second line with its allele-2 values |

## Left out

- Reading the CSV (argparse, `pd.read_csv`, `replace("-", nan)`): the input is an already-parsed table of `Option` cells.
- The `astype(float)` failure on a cell that is neither a number nor "-": values arrive as reals.
- Printing, and writing the `.str` file as tab-joined lines.
- pandas' renaming of duplicated column names.
- The seeded generator `default_rng(seed=123)` and the fixed `n_perm = 999`. The draws of each permutation are input, and any non-empty list of permutations is accepted.
- Permutation.Shuffle: does not constrain the draws to the values numpy's generator produces, because only validity (`j <= i`) matters for the properties; it also performs a no-op swap at position 0.
- float64 rounding and NaN or infinite inputs: values are exact reals, and the square root is a parameter.
- Groups.LabelNumber: reads ASCII digits only, because Python's `\d` also matches other Unicode decimal digits.
- `scripts/plot_structure.py`: it only draws plots, and is not part of this model.

=== FILE: amova.dfy ===
/**
 * The AMOVA script end to end: the samples are all columns after the first; loci
 * missing in every sample are dropped, the remaining missing cells imputed with
 * their locus mean; the Euclidean distance matrix of the samples is partitioned
 * by the group each sample name's number falls into, and the observed ΦST is
 * compared with the ΦST of each shuffled labelling.
 */
module Amova {
  import opened Wrappers
  import opened Masks
  import opened Table
  import opened Imputation
  import opened Distance
  import opened Groups
  import opened Partition
  import opened Permutation

  /** The numbers the script reports. */
  datatype AmovaReport = AmovaReport(
    lociTotal: nat,
    lociKept: nat,
    groups: seq<Group>,
    partition: PartitionResult,
    permuted: seq<Option<real>>,
    pValue: real)

  /** The sample names: every column name after the first. */
  function Samples(t: Table<real>): (names: seq<string>)
    ensures |names| == if |t.header| == 0 then 0 else |t.header| - 1
    ensures forall k :: 0 <= k < |names| ==> names[k] == t.header[k + 1]
  {
    Names(t.header, AfterFirstColumn(t.header))
  }

  /** The genotype cells of the samples, one row per locus and one cell per sample. */
  function Grid(t: Table<real>): (g: seq<seq<Option<real>>>)
    requires WellFormed(t)
    ensures |g| == |t.rows|
    ensures forall l :: 0 <= l < |g| ==> |g[l]| == |Samples(t)|
    ensures forall l, k :: 0 <= l < |g| && 0 <= k < |Samples(t)| ==> g[l][k] == t.rows[l][k + 1]
  {
    Project(t, AfterFirstColumn(t.header))
  }

  /**
   * The genotypes after the row filter and the imputation: exactly the loci observed in
   * some sample, in file order, with no missing cell left, the observed cells
   * unchanged and each missing cell holding its locus's observed mean.
   */
  function Genotypes(t: Table<real>): (g: seq<seq<real>>)
    requires WellFormed(t)
    ensures |g| == CountTrue(ObservedMask(Grid(t))) <= |t.rows|
    ensures Rectangular(g, |Samples(t)|)
    ensures var kept := DropMissingRows(Grid(t));
      forall l, k :: 0 <= l < |g| && 0 <= k < |Samples(t)| && kept[l][k].Some? ==> g[l][k] == kept[l][k].value
    ensures var kept := DropMissingRows(Grid(t));
      forall l, k :: 0 <= l < |g| && 0 <= k < |Samples(t)| && kept[l][k].None? ==> g[l][k] == ObservedMean(kept[l])
  {
    var kept := DropMissingRows(Grid(t));
    Impute(kept)
  }

  /** Valid draws for each permutation of the samples of `t`. */
  predicate DrawsFor(t: Table<real>, draws: seq<seq<nat>>) {
    forall p :: 0 <= p < |draws| ==> ValidDraws(draws[p], |Samples(t)|)
  }

  /**
   * The script's results: they exist exactly when every sample name falls in a
   * group (otherwise the first failing name's error), the partition is
   * consistent, there is one permuted ΦST per shuffle, each scored against the
   * observed distance matrix, and the p-value is the share of them that reach the
   * observed ΦST: it lies in [0, 1] and is zero whenever the observed ΦST is
   * undefined.
   */
  function Amova(t: Table<real>, sqrt: real -> real, draws: seq<seq<nat>>): (r: Result<AmovaReport, LabelError>)
    requires WellFormed(t) && DrawsFor(t, draws) && |draws| > 0
    ensures r.Success? <==> AssignGroups(Samples(t)).Success?
    ensures r.Failure? ==> r.error == AssignGroups(Samples(t)).error
    ensures r.Success? ==> (
      && r.value.lociTotal == |t.rows|
      && r.value.lociKept == CountTrue(ObservedMask(Grid(t))) <= r.value.lociTotal
      && r.value.groups == AssignGroups(Samples(t)).value
      && r.value.partition == Decompose(DistanceMatrix(Genotypes(t), |Samples(t)|, sqrt), r.value.groups)
      && Consistent(r.value.partition)
      && r.value.permuted == PermutedStats(DistanceMatrix(Genotypes(t), |Samples(t)|, sqrt), r.value.groups, draws)
      && |r.value.permuted| == |draws|
      && r.value.pValue == PValue(r.value.permuted, r.value.partition.phi)
      && 0.0 <= r.value.pValue <= 1.0
      && (r.value.partition.phi.None? ==> r.value.pValue == 0.0))
  {
    match AssignGroups(Samples(t))
    case Failure(e) => Failure(e)
    case Success(groups) =>
      var n := |Samples(t)|;
      var g := Genotypes(t);
      var d := DistanceMatrix(g, n, sqrt);
      var partition := Decompose(d, groups);
      var permuted := PermutedStats(d, groups, draws);
      Success(AmovaReport(|t.rows|, |g|, groups, partition, permuted, PValue(permuted, partition.phi)))
  }

  /**
   * For any labelling, ΦST is undefined exactly when all samples carry the same
   * genotype at every locus: the distances all vanish, and so does SS_total.
   */
  lemma PhiUndefinedIff(g: seq<seq<real>>, n: nat, sqrt: real -> real, groups: seq<Group>)
    requires Rectangular(g, n) && |groups| == n && RootOfZero(sqrt)
    ensures Decompose(DistanceMatrix(g, n, sqrt), groups).phi.None?
        <==> IdenticalSamples(g, n)
  {
    var d := DistanceMatrix(g, n, sqrt);
    ZeroDistancesIff(g, n, sqrt);
    SSTotalZero(d, n);
  }

  /**
   * ΦST is undefined exactly when, after imputation, all samples carry the same
   * genotype at every kept locus; the p-value is then zero, since every
   * comparison with the undefined value fails.
   */
  lemma UndefinedPhi(t: Table<real>, sqrt: real -> real, draws: seq<seq<nat>>)
    requires WellFormed(t) && DrawsFor(t, draws) && |draws| > 0
    requires RootOfZero(sqrt)
    requires AssignGroups(Samples(t)).Success?
    ensures var report := Amova(t, sqrt, draws).value;
      && (report.partition.phi.None? <==> IdenticalSamples(Genotypes(t), |Samples(t)|))
      && (report.partition.phi.None? ==> report.pValue == 0.0)
  {
    PhiUndefinedIff(Genotypes(t), |Samples(t)|, sqrt, AssignGroups(Samples(t)).value);
  }
}

=== FILE: decimal.dfy ===
/**
 * ASCII decimal digits: the value of a run of digits (Python's `int` applied to
 * a `\d+` match) and the decimal text of an integer (Python's `str` of an `int`).
 */
module Decimal {
  import opened Wrappers

  predicate IsDigit(c: char) {
    '0' <= c <= '9'
  }

  predicate AllDigits(s: string) {
    forall i :: 0 <= i < |s| ==> IsDigit(s[i])
  }

  function DigitValue(c: char): (d: nat)
    requires IsDigit(c)
    ensures d < 10
  {
    c as int - '0' as int
  }

  function DigitChar(d: nat): (c: char)
    requires d < 10
    ensures IsDigit(c) && DigitValue(c) == d
  {
    ('0' as int + d) as char
  }

  /**
   * The value of a digit string read most significant digit first, as Python's
   * `int` reads it: a leading zero changes nothing.
   */
  function DigitsValue(s: string): (v: nat)
    requires AllDigits(s)
    ensures |s| > 0 && s[0] == '0' ==> v == DigitsValue(s[1..])
  {
    if |s| == 0 then 0
    else
      var front := s[..|s| - 1];
      assert |s| > 1 ==> s[1..][..|s| - 2] == front[1..];
      DigitsValue(front) * 10 + DigitValue(s[|s| - 1])
  }

  /** The shortest decimal text of `n`: digits only, no leading zero, and reading it back gives `n`. */
  function NatToString(n: nat): (s: string)
    ensures 1 <= |s| && AllDigits(s)
    ensures |s| > 1 ==> s[0] != '0'
    ensures DigitsValue(s) == n
  {
    if n < 10 then [DigitChar(n)]
    else
      var s := NatToString(n / 10) + [DigitChar(n % 10)];
      assert s[..|s| - 1] == NatToString(n / 10);
      s
  }

  /**
   * Python's `str(v)` for an integer `v`: a minus sign before the digits of a
   * negative number, and no leading zero except in "0" itself.
   */
  function IntToString(v: int): (s: string)
    ensures 1 <= |s|
    ensures v >= 0 <==> IsDigit(s[0])
    ensures v < 0 <==> s[0] == '-'
    ensures s[0] != '-' ==> AllDigits(s) && (|s| > 1 ==> s[0] != '0')
    ensures s[0] == '-' ==> |s| >= 2 && s[1] != '0' && AllDigits(s[1..])
  {
    if v < 0 then "-" + NatToString(-v) else NatToString(v)
  }

  /** Reads back the text `IntToString` produces; anything else is `None`. */
  function ParseInt(s: string): Option<int> {
    if |s| >= 2 && s[0] == '-' && AllDigits(s[1..]) then Some(-(DigitsValue(s[1..]) as int))
    else if |s| >= 1 && AllDigits(s) then Some(DigitsValue(s))
    else None
  }

  /** Rendering an integer and reading it back is the identity. */
  lemma ParseIntToString(v: int)
    ensures ParseInt(IntToString(v)) == Some(v)
  {
    if v < 0 {
      var s := IntToString(v);
      assert s[1..] == NatToString(-v);
    }
  }

  /** Two integers with the same text are equal: `str` loses nothing. */
  lemma IntToStringInjective(v: int, w: int)
    requires IntToString(v) == IntToString(w)
    ensures v == w
  {
    ParseIntToString(v);
    ParseIntToString(w);
  }

  /** Python's `int(x)` on a finite float: the integer part, rounding toward zero. */
  function Trunc(x: real): (i: int)
    ensures x >= 0.0 ==> 0 <= i && i as real <= x < i as real + 1.0
    ensures x < 0.0 ==> i <= 0 && i as real - 1.0 < x <= i as real
  {
    if x >= 0.0 then x.Floor else -((-x).Floor)
  }

  /** Truncation keeps whole numbers and is symmetric about zero, unlike the floor. */
  lemma TruncProperties(x: real, v: int)
    ensures Trunc(v as real) == v
    ensures Trunc(-x) == -Trunc(x)
  {
  }
}

=== FILE: distance.dfy ===
/**
 * The pairwise distance matrix of the AMOVA script, built with scipy's `pdist` and
 * `squareform`.
 * Samples are the columns of the imputed loci x samples matrix; the distance of
 * two samples is the Euclidean norm of the difference of their columns. The
 * square root is a parameter of the model: exact reals have no computable root.
 */
module Distance {
  import opened Sums

  /** Every locus has a value for each of the `n` samples. */
  predicate Rectangular(g: seq<seq<real>>, n: nat) {
    forall l :: 0 <= l < |g| ==> |g[l]| == n
  }

  /** An `n` x `n` matrix. */
  predicate Square(d: seq<seq<real>>, n: nat) {
    |d| == n && forall i :: 0 <= i < n ==> |d[i]| == n
  }

  /** The squared Euclidean distance of samples `i` and `j` over the loci of `g`. */
  function SqDist(g: seq<seq<real>>, n: nat, i: nat, j: nat): (s: real)
    requires Rectangular(g, n) && i < n && j < n
    ensures s >= 0.0
  {
    if |g| == 0 then 0.0
    else SqDist(g[..|g| - 1], n, i, j) + Sq(g[|g| - 1][i] - g[|g| - 1][j])
  }

  /** Swapping the two samples does not change their squared distance. */
  lemma {:induction false} SqDistSymmetric(g: seq<seq<real>>, n: nat, i: nat, j: nat)
    requires Rectangular(g, n) && i < n && j < n
    ensures SqDist(g, n, i, j) == SqDist(g, n, j, i)
  {
    if |g| > 0 {
      SqDistSymmetric(g[..|g| - 1], n, i, j);
      SqDifferenceSymmetric(g[|g| - 1][i], g[|g| - 1][j]);
    }
  }

  /** Two samples are at squared distance zero exactly when they agree at every locus. */
  lemma {:induction false} SqDistZero(g: seq<seq<real>>, n: nat, i: nat, j: nat)
    requires Rectangular(g, n) && i < n && j < n
    ensures SqDist(g, n, i, j) == 0.0 <==> forall l :: 0 <= l < |g| ==> g[l][i] == g[l][j]
  {
    if |g| > 0 {
      var last := |g| - 1;
      var front := g[..last];
      SqDistZero(front, n, i, j);
      var x := g[last][i] - g[last][j];
      var rest := SqDist(front, n, i, j);
      assert SqDist(g, n, i, j) == rest + Sq(x);
      if x != 0.0 {
        SqPositive(x);
        assert g[last][i] != g[last][j];
      } else {
        assert SqDist(g, n, i, j) == rest;
        assert forall l :: 0 <= l < |front| ==> front[l] == g[l];
      }
    }
  }

  /**
   * The distance matrix of the samples (the columns of `g`): an `n` x `n` matrix with an exact zero diagonal
   * (squareform writes the zeros), each off-diagonal pair computed once and
   * mirrored, and every off-diagonal entry the root of the squared distance.
   */
  function DistanceMatrix(g: seq<seq<real>>, n: nat, sqrt: real -> real): (d: seq<seq<real>>)
    requires Rectangular(g, n)
    ensures Square(d, n)
    ensures forall i :: 0 <= i < n ==> d[i][i] == 0.0
    ensures forall i, j :: 0 <= i < n && 0 <= j < n ==> d[i][j] == d[j][i]
    ensures forall i, j :: 0 <= i < n && 0 <= j < n && i != j ==> d[i][j] == sqrt(SqDist(g, n, i, j))
  {
    var d := seq(n, i requires 0 <= i < n =>
      seq(n, j requires 0 <= j < n =>
        if i == j then 0.0
        else if i < j then sqrt(SqDist(g, n, i, j))
        else sqrt(SqDist(g, n, j, i))));
    assert forall i, j :: 0 <= i < n && 0 <= j < n ==> SqDist(g, n, i, j) == SqDist(g, n, j, i) by {
      forall i, j | 0 <= i < n && 0 <= j < n {
        SqDistSymmetric(g, n, i, j);
      }
    }
    d
  }

  /** A square root on the non-negative reals: zero exactly at zero. */
  ghost predicate RootOfZero(sqrt: real -> real) {
    forall x :: x >= 0.0 ==> (sqrt(x) == 0.0 <==> x == 0.0)
  }

  /** All samples carry the same genotype at every locus. */
  predicate IdenticalSamples(g: seq<seq<real>>, n: nat)
    requires Rectangular(g, n)
  {
    forall l, i, j :: 0 <= l < |g| && 0 <= i < n && 0 <= j < n ==> g[l][i] == g[l][j]
  }

  /**
   * Every distance is zero exactly when all samples carry the same genotype at
   * every locus.
   */
  lemma ZeroDistancesIff(g: seq<seq<real>>, n: nat, sqrt: real -> real)
    requires Rectangular(g, n) && RootOfZero(sqrt)
    ensures (forall i, j :: 0 <= i < n && 0 <= j < n ==> DistanceMatrix(g, n, sqrt)[i][j] == 0.0)
        <==> IdenticalSamples(g, n)
  {
    var d := DistanceMatrix(g, n, sqrt);
    forall i, j | 0 <= i < n && 0 <= j < n && i != j
      ensures d[i][j] == 0.0 <==> forall l :: 0 <= l < |g| ==> g[l][i] == g[l][j]
    {
      SqDistZero(g, n, i, j);
      assert d[i][j] == sqrt(SqDist(g, n, i, j)) && SqDist(g, n, i, j) >= 0.0;
    }
    if forall i, j :: 0 <= i < n && 0 <= j < n ==> d[i][j] == 0.0 {
      forall l, i, j | 0 <= l < |g| && 0 <= i < n && 0 <= j < n && i != j
        ensures g[l][i] == g[l][j]
      {
        assert d[i][j] == 0.0;
      }
    }
  }
}

=== FILE: groups.dfy ===
/**
 * The group assigner of the AMOVA script: the number embedded in a sample name
 * (its first run of decimal digits, as a regular-expression search finds it)
 * decides which of the two population groups the sample belongs to. A name
 * without digits, or whose number lies outside both ranges, aborts the run.
 */
module Groups {
  import opened Wrappers
  import opened Decimal

  datatype Group = Grupo1 | Grupo2

  /** The two ways a name can fail; both stop the script with a `ValueError`. */
  datatype LabelError =
    | NoNumber(name: string)
    | OutOfRange(name: string, number: nat)

  /** The closed range of name numbers assigned to each group. */
  function Low(g: Group): nat {
    match g
    case Grupo1 => 101
    case Grupo2 => 115
  }

  function High(g: Group): nat {
    match g
    case Grupo1 => 114
    case Grupo2 => 129
  }

  /** `s[i..j]` is the leftmost maximal run of digits of `s`. */
  predicate IsFirstDigitRun(s: string, i: nat, j: nat) {
    && i < j <= |s|
    && (forall k :: 0 <= k < i ==> !IsDigit(s[k]))
    && (forall k :: i <= k < j ==> IsDigit(s[k]))
    && (j == |s| || !IsDigit(s[j]))
  }

  /** Where the run of digits starting at `j` ends. */
  function RunEnd(s: string, j: nat): (e: nat)
    requires j <= |s|
    ensures j <= e <= |s|
    ensures forall k :: j <= k < e ==> IsDigit(s[k])
    ensures e == |s| || !IsDigit(s[e])
    decreases |s| - j
  {
    if j < |s| && IsDigit(s[j]) then RunEnd(s, j + 1) else j
  }

  /** Scans from `i`, past a prefix known to hold no digit, for the first run of digits. */
  function FirstDigitRunFrom(s: string, i: nat): (r: Option<(nat, nat)>)
    requires i <= |s|
    requires forall k :: 0 <= k < i ==> !IsDigit(s[k])
    ensures r.None? <==> forall k :: i <= k < |s| ==> !IsDigit(s[k])
    ensures r.Some? ==> IsFirstDigitRun(s, r.value.0, r.value.1)
    decreases |s| - i
  {
    if i == |s| then None
    else if IsDigit(s[i]) then Some((i, RunEnd(s, i + 1)))
    else FirstDigitRunFrom(s, i + 1)
  }

  /** The position of the first run of digits, absent exactly when the name has no digit. */
  function FirstDigitRun(s: string): (r: Option<(nat, nat)>)
    ensures r.None? <==> forall k :: 0 <= k < |s| ==> !IsDigit(s[k])
    ensures r.Some? ==> IsFirstDigitRun(s, r.value.0, r.value.1)
  {
    FirstDigitRunFrom(s, 0)
  }

  /** A name has at most one first maximal run of digits. */
  lemma FirstDigitRunUnique(s: string, i: nat, j: nat, i': nat, j': nat)
    requires IsFirstDigitRun(s, i, j) && IsFirstDigitRun(s, i', j')
    ensures i == i' && j == j'
  {
    assert IsDigit(s[i]) && IsDigit(s[i']);
    assert j < |s| ==> !IsDigit(s[j]);
    assert j' < |s| ==> !IsDigit(s[j']);
  }

  /**
   * The number in a name: the decimal value of its first maximal run of
   * digits, absent exactly when the name has no digit.
   */
  function LabelNumber(s: string): (r: Option<nat>)
    ensures r.None? <==> forall k :: 0 <= k < |s| ==> !IsDigit(s[k])
    ensures forall i: nat, j: nat :: IsFirstDigitRun(s, i, j) ==> r == Some(DigitsValue(s[i..j]))
  {
    match FirstDigitRun(s)
    case None =>
      assert forall i: nat, j: nat :: IsFirstDigitRun(s, i, j) ==> IsDigit(s[i]);
      None
    case Some((i, j)) =>
      assert forall i': nat, j': nat :: IsFirstDigitRun(s, i', j') ==> i' == i && j' == j by {
        forall i': nat, j': nat | IsFirstDigitRun(s, i', j')
          ensures i' == i && j' == j
        {
          FirstDigitRunUnique(s, i, j, i', j');
        }
      }
      Some(DigitsValue(s[i..j]))
  }

  /**
   * The group of one name: the group whose range holds the name's number; no
   * number, or a number in neither range, is an error naming the name.
   */
  function Classify(name: string): (r: Result<Group, LabelError>)
    ensures forall g :: r == Success(g) <==>
      LabelNumber(name).Some? && Low(g) <= LabelNumber(name).value <= High(g)
    ensures LabelNumber(name).None? <==> r == Failure(NoNumber(name))
    ensures r.Failure? && LabelNumber(name).Some? ==> r.error == OutOfRange(name, LabelNumber(name).value)
  {
    match LabelNumber(name)
    case None => Failure(NoNumber(name))
    case Some(n) =>
      if 101 <= n <= 114 then Success(Grupo1)
      else if 115 <= n <= 129 then Success(Grupo2)
      else Failure(OutOfRange(name, n))
  }

  /**
   * The loop over all sample labels: the group of every name, in order, or the
   * error of the first name that fails.
   */
  function AssignGroups(samples: seq<string>): (r: Result<seq<Group>, LabelError>)
    ensures r.Success? <==> forall i :: 0 <= i < |samples| ==> Classify(samples[i]).Success?
    ensures r.Success? ==> |r.value| == |samples|
    ensures r.Success? ==> forall i :: 0 <= i < |samples| ==> Classify(samples[i]) == Success(r.value[i])
    ensures r.Failure? ==>
              exists i :: (0 <= i < |samples| && Classify(samples[i]) == Failure(r.error)
                           && forall k :: 0 <= k < i ==> Classify(samples[k]).Success?)
  {
    if |samples| == 0 then Success([])
    else
      match Classify(samples[0])
      case Failure(e) => Failure(e)
      case Success(g) =>
        var rest := AssignGroups(samples[1..]);
        match rest
        case Failure(e) =>
          assert forall k :: 0 <= k < |samples| - 1 ==> samples[1..][k] == samples[k + 1];
          var i :| 0 <= i < |samples| - 1 && Classify(samples[1..][i]) == Failure(e)
            && forall k :: 0 <= k < i ==> Classify(samples[1..][k]).Success?;
          assert Classify(samples[i + 1]) == Failure(e);
          Failure(e)
        case Success(gs) =>
          assert forall k :: 0 <= k < |samples| - 1 ==> samples[1..][k] == samples[k + 1];
          Success([g] + gs)
  }
}

=== FILE: imputation.dfy ===
/**
 * Mean imputation of the AMOVA script: every missing cell of a locus is replaced
 * by the mean of the observed cells of that locus (`np.nanmean` along the row).
 */
module Imputation {
  import opened Wrappers
  import opened Table
  import opened Sums

  /** The sum of the observed cells of a row. */
  function ObservedSum(row: seq<Option<real>>): real {
    if |row| == 0 then 0.0
    else ObservedSum(row[..|row| - 1]) + row[|row| - 1].GetOr(0.0)
  }

  /** The number of observed cells of a row: positive exactly when the row is observed somewhere. */
  function ObservedCount(row: seq<Option<real>>): (c: nat)
    ensures c <= |row|
    ensures c > 0 <==> Observed(row)
  {
    if |row| == 0 then 0
    else
      var front := row[..|row| - 1];
      var c := ObservedCount(front) + (if row[|row| - 1].Some? then 1 else 0);
      assert Observed(front) ==> Observed(row) by {
        if Observed(front) {
          var j :| 0 <= j < |front| && front[j].Some?;
          assert row[j].Some?;
        }
      }
      assert Observed(row) && row[|row| - 1].None? ==> Observed(front) by {
        if Observed(row) && row[|row| - 1].None? {
          var j :| 0 <= j < |row| && row[j].Some?;
          assert front[j].Some?;
        }
      }
      c
  }

  /** The number of missing cells of a row. */
  function Missing(row: seq<Option<real>>): (m: nat)
    ensures m == |row| - ObservedCount(row)
  {
    if |row| == 0 then 0
    else Missing(row[..|row| - 1]) + (if row[|row| - 1].None? then 1 else 0)
  }

  /**
   * `np.nanmean(row)`, defined for a row with an observed cell: the value whose
   * one copy per observed cell adds up to the observed sum.
   */
  function ObservedMean(row: seq<Option<real>>): (m: real)
    requires Observed(row)
    ensures Scale(ObservedCount(row), m) == ObservedSum(row)
  {
    QuotientTimesDivisor(ObservedSum(row), ObservedCount(row) as real);
    ObservedSum(row) / ObservedCount(row) as real
  }

  /** The row with every missing cell replaced by `fill`. */
  function Fill(row: seq<Option<real>>, fill: real): (r: seq<real>)
    ensures |r| == |row|
  {
    seq(|row|, i requires 0 <= i < |row| => row[i].GetOr(fill))
  }

  /**
   * The imputed locus: no cell is missing, observed cells keep their value and
   * every missing cell holds the mean of the observed ones.
   */
  function ImputeRow(row: seq<Option<real>>): (r: seq<real>)
    requires Observed(row)
    ensures |r| == |row|
    ensures forall i :: 0 <= i < |row| && row[i].Some? ==> r[i] == row[i].value
    ensures forall i :: 0 <= i < |row| && row[i].None? ==> r[i] == ObservedMean(row)
  {
    Fill(row, ObservedMean(row))
  }

  /** Filling adds `fill` once per missing cell to the observed sum. */
  lemma {:induction false} FillSum(row: seq<Option<real>>, fill: real)
    ensures Sum(Fill(row, fill)) == ObservedSum(row) + Scale(Missing(row), fill)
  {
    if |row| > 0 {
      var front := row[..|row| - 1];
      FillSum(front, fill);
      assert Fill(row, fill)[..|row| - 1] == Fill(front, fill);
      if row[|row| - 1].None? {
        ScaleStep(Missing(front), fill);
      }
    }
  }

  /**
   * Imputation leaves the locus mean where it was: the mean of the completed row
   * equals the mean of its observed cells.
   */
  lemma {:induction false} ImputeKeepsMean(row: seq<Option<real>>)
    requires Observed(row)
    ensures Mean(ImputeRow(row)) == ObservedMean(row)
  {
    var m := ObservedMean(row);
    FillSum(row, m);
    MeanAlgebra(ObservedSum(row), ObservedCount(row) as real, Missing(row), |row| as real, Sum(ImputeRow(row)));
  }

  /** Adding `k` copies of the mean of `c` values to their sum keeps the mean. */
  lemma MeanAlgebra(s: real, c: real, k: nat, n: real, total: real)
    requires c > 0.0 && n == k as real + c
    requires total == s + Scale(k, s / c)
    ensures total / n == s / c
  {
    var m := s / c;
    QuotientTimesDivisor(s, c);
    Distribute(k as real, c, m);
    ProductOverFactor(total, n, m);
  }

  lemma Distribute(k: real, c: real, m: real)
    ensures k * m + c * m == (k + c) * m
  {
  }

  /**
   * The imputed genotype matrix: same shape, no missing cell, observed cells
   * unchanged and every filled cell equal to its locus's observed mean.
   */
  function Impute(g: seq<seq<Option<real>>>): (r: seq<seq<real>>)
    requires forall l :: 0 <= l < |g| ==> Observed(g[l])
    ensures |r| == |g|
    ensures forall l :: 0 <= l < |g| ==> |r[l]| == |g[l]|
    ensures forall l, j :: 0 <= l < |g| && 0 <= j < |g[l]| && g[l][j].Some? ==> r[l][j] == g[l][j].value
    ensures forall l, j :: 0 <= l < |g| && 0 <= j < |g[l]| && g[l][j].None? ==> r[l][j] == ObservedMean(g[l])
  {
    seq(|g|, l requires 0 <= l < |g| => ImputeRow(g[l]))
  }
}

=== FILE: masks.dfy ===
/**
 * Boolean masks over sequences: the model of numpy's `a[mask]` row selection and
 * of a list comprehension with an `if` filter. Selection keeps exactly the marked
 * elements, in their original order.
 */
module Masks {

  /** The number of positions a mask keeps. */
  function CountTrue(keep: seq<bool>): (c: nat)
    ensures c <= |keep|
  {
    if |keep| == 0 then 0
    else CountTrue(keep[..|keep| - 1]) + (if keep[|keep| - 1] then 1 else 0)
  }

  predicate StrictlyIncreasing(ix: seq<nat>) {
    forall k, k' :: 0 <= k < k' < |ix| ==> ix[k] < ix[k']
  }

  /** The positions a mask keeps, in increasing order. */
  function KeptIndices(keep: seq<bool>): (ix: seq<nat>)
    ensures |ix| == CountTrue(keep)
    ensures StrictlyIncreasing(ix)
    ensures forall k :: 0 <= k < |ix| ==> ix[k] < |keep| && keep[ix[k]]
    ensures forall i :: 0 <= i < |keep| && keep[i] ==> i in ix
  {
    if |keep| == 0 then []
    else
      var front := KeptIndices(keep[..|keep| - 1]);
      front + (if keep[|keep| - 1] then [|keep| - 1] else [])
  }

  /** `s[keep]`: the elements of `s` at the kept positions, in order. */
  function Select<T>(s: seq<T>, keep: seq<bool>): (r: seq<T>)
    requires |keep| == |s|
    ensures |r| == CountTrue(keep) <= |s|
  {
    if |s| == 0 then []
    else Select(s[..|s| - 1], keep[..|keep| - 1]) + (if keep[|keep| - 1] then [s[|s| - 1]] else [])
  }

  /** The `k`-th selected element is the element at the `k`-th kept position. */
  lemma {:induction false} SelectIndex<T>(s: seq<T>, keep: seq<bool>)
    requires |keep| == |s|
    ensures forall k :: 0 <= k < |Select(s, keep)| ==> Select(s, keep)[k] == s[KeptIndices(keep)[k]]
  {
    if |s| > 0 {
      var last := |s| - 1;
      var front := s[..last];
      var keepFront := keep[..last];
      SelectIndex(front, keepFront);
      var r := Select(s, keep);
      var f := Select(front, keepFront);
      var ix := KeptIndices(keep);
      var ixFront := KeptIndices(keepFront);
      assert r == f + (if keep[last] then [s[last]] else []);
      assert ix == ixFront + (if keep[last] then [last] else []);
      forall k | 0 <= k < |r|
        ensures r[k] == s[ix[k]]
      {
        if k < |f| {
          assert r[k] == f[k] && ix[k] == ixFront[k];
          assert front[ixFront[k]] == s[ixFront[k]];
        }
      }
    }
  }

  /** A mask that keeps every position selects the whole sequence. */
  lemma {:induction false} SelectAll<T>(s: seq<T>, keep: seq<bool>)
    requires |keep| == |s|
    requires forall i :: 0 <= i < |keep| ==> keep[i]
    ensures Select(s, keep) == s
  {
    if |s| > 0 {
      var last := |s| - 1;
      SelectAll(s[..last], keep[..last]);
      assert s[..last] + [s[last]] == s;
    }
  }

  /** Every element of `s` at a kept position survives the selection, and nothing else does. */
  lemma SelectMembers<T>(s: seq<T>, keep: seq<bool>)
    requires |keep| == |s|
    ensures forall i :: 0 <= i < |s| && keep[i] ==> s[i] in Select(s, keep)
    ensures forall x :: x in Select(s, keep) ==> exists i :: 0 <= i < |s| && keep[i] && s[i] == x
  {
    var r := Select(s, keep);
    var ix := KeptIndices(keep);
    SelectIndex(s, keep);
    forall i | 0 <= i < |s| && keep[i]
      ensures s[i] in r
    {
      var k :| 0 <= k < |ix| && ix[k] == i;
      assert r[k] == s[i];
    }
    forall x | x in r
      ensures exists i :: 0 <= i < |s| && keep[i] && s[i] == x
    {
      var k :| 0 <= k < |r| && r[k] == x;
      assert keep[ix[k]] && s[ix[k]] == x;
    }
  }
}

=== FILE: one_row.dfy ===
/**
 * The dosage-to-STRUCTURE converter: one row per locus holding each sample's
 * count of alternative alleles (0, 1 or 2). Samples are all columns not named
 * "Mark"; loci missing in every sample are dropped; each sample's dosages are
 * split into two allele lines.
 */
module OneRow {
  import opened Wrappers
  import opened Decimal
  import opened Masks
  import opened Table
  import opened StructureRows

  /**
   * The two alleles of one dosage: the dosage is truncated to an integer; 0 is
   * homozygous reference, 1 heterozygous with the reference allele first, 2
   * homozygous alternative; a missing cell or any other number gives two
   * missing alleles.
   */
  function Encode(cell: Option<real>): (alleles: (string, string))
    ensures alleles.0 in {"0", "1", MissingAllele} && alleles.1 in {"0", "1", MissingAllele}
    ensures alleles.0 == MissingAllele <==> alleles.1 == MissingAllele
    ensures alleles.0 == "1" ==> alleles.1 == "1"
    ensures alleles.0 == MissingAllele <==> cell.None? || Trunc(cell.value) !in {0, 1, 2}
  {
    match cell
    case None => (MissingAllele, MissingAllele)
    case Some(v) =>
      var dosage := Trunc(v);
      if dosage == 0 then ("0", "0")
      else if dosage == 1 then ("0", "1")
      else if dosage == 2 then ("1", "1")
      else (MissingAllele, MissingAllele)
  }

  /** The dosage a pair of alleles stands for: the number of alternative alleles. */
  function Dosage(alleles: (string, string)): Option<int> {
    if alleles.0 == MissingAllele || alleles.1 == MissingAllele then None
    else Some((if alleles.0 == "1" then 1 else 0) + (if alleles.1 == "1" then 1 else 0))
  }

  /** Decoding the alleles gives back the truncated dosage whenever it is 0, 1 or 2. */
  lemma EncodeDosage(cell: Option<real>)
    ensures Dosage(Encode(cell)) == if cell.Some? && Trunc(cell.value) in {0, 1, 2} then Some(Trunc(cell.value)) else None
  {
  }

  /** The dosages of sample `j` over the loci, in order. */
  function Column(g: seq<seq<Option<real>>>, j: nat): (c: seq<Option<real>>)
    requires forall l :: 0 <= l < |g| ==> j < |g[l]|
    ensures |c| == |g| && forall l :: 0 <= l < |g| ==> c[l] == g[l][j]
  {
    seq(|g|, l requires 0 <= l < |g| => g[l][j])
  }

  /** The first and the second alleles of a sample's dosages. */
  function AlleleLines(dosages: seq<Option<real>>): (lines: (seq<string>, seq<string>))
    ensures |lines.0| == |dosages| && |lines.1| == |dosages|
    ensures forall l :: 0 <= l < |dosages| ==> (lines.0[l], lines.1[l]) == Encode(dosages[l])
  {
    (seq(|dosages|, l requires 0 <= l < |dosages| => Encode(dosages[l]).0),
     seq(|dosages|, l requires 0 <= l < |dosages| => Encode(dosages[l]).1))
  }

  /**
   * The kept dosage grid over the non-"Mark" columns: exactly the loci observed in
   * some sample, in file order.
   */
  function KeptDosages(t: Table<real>): (g: seq<seq<Option<real>>>)
    requires WellFormed(t)
    ensures |g| <= |t.rows|
    ensures forall l :: 0 <= l < |g| ==> |g[l]| == |NonMarkColumns(t.header)| && Observed(g[l])
    ensures var p := Project(t, NonMarkColumns(t.header));
      && |g| == CountTrue(ObservedMask(p))
      && (forall k :: 0 <= k < |g| ==> g[k] == p[KeptIndices(ObservedMask(p))[k]])
      && (forall l :: 0 <= l < |p| && Observed(p[l]) ==> p[l] in g)
  {
    DropMissingRows(Project(t, NonMarkColumns(t.header)))
  }

  /**
   * The two rows of one sample: both start with its metadata, and after it
   * position `l` holds the two alleles of the sample's dosage at locus `l`.
   */
  predicate SampleRows(row1: seq<string>, row2: seq<string>, name: string, dosages: seq<Option<real>>) {
    && |row1| == 6 + |dosages| && |row2| == 6 + |dosages|
    && row1[..6] == Meta(name) && row2[..6] == Meta(name)
    && forall l :: 0 <= l < |dosages| ==> (row1[6 + l], row2[6 + l]) == Encode(dosages[l])
  }

  lemma AlleleLinesRows(name: string, dosages: seq<Option<real>>)
    ensures var lines := AlleleLines(dosages);
      SampleRows(Meta(name) + lines.0, Meta(name) + lines.1, name, dosages)
  {
    var lines := AlleleLines(dosages);
    assert (Meta(name) + lines.0)[..6] == Meta(name);
    assert (Meta(name) + lines.1)[..6] == Meta(name);
  }

  /**
   * The rows of the `.str` file: two per non-"Mark" column, in column order, the
   * rows of sample `j` holding the alleles of its dosages at the kept loci.
   */
  function Convert(t: Table<real>): (rows: seq<seq<string>>)
    requires WellFormed(t)
    ensures var cols := NonMarkColumns(t.header);
            var g := KeptDosages(t);
      && |rows| == 2 * |cols|
      && forall j :: 0 <= j < |cols| ==>
           SampleRows(rows[2 * j], rows[2 * j + 1], t.header[cols[j]], Column(g, j))
  {
    var cols := NonMarkColumns(t.header);
    var samples := Names(t.header, cols);
    var g := KeptDosages(t);
    var first := seq(|cols|, j requires 0 <= j < |cols| => AlleleLines(Column(g, j)).0);
    var second := seq(|cols|, j requires 0 <= j < |cols| => AlleleLines(Column(g, j)).1);
    forall j | 0 <= j < |cols| {
      AlleleLinesRows(samples[j], Column(g, j));
    }
    EmitRows(samples, first, second)
  }
}

=== FILE: partition.dfy ===
/**
 * The variance partition of the AMOVA script. The block of a group is the
 * sub-matrix of the samples a mask selects; numpy's `np.mean` and
 * `np.sum` run over its entries in row-major order, both triangles and the zero
 * diagonal included. SS_total is the sum of squares of the whole matrix about
 * its mean, SS_within the sum over the groups of each block's sum of squares
 * about the block's own mean.
 */
module Partition {
  import opened Wrappers
  import opened Masks
  import opened Sums
  import opened Distance
  import opened Groups

  /** The rows `rows` keeps, each cut down to the columns `cols` keeps. */
  function SelectRows(d: seq<seq<real>>, rows: seq<bool>, cols: seq<bool>): (r: seq<seq<real>>)
    requires |rows| == |d|
    requires forall a :: 0 <= a < |d| ==> |d[a]| == |cols|
    ensures |r| == CountTrue(rows)
  {
    if |d| == 0 then []
    else
      SelectRows(d[..|d| - 1], rows[..|rows| - 1], cols)
      + (if rows[|rows| - 1] then [Select(d[|d| - 1], cols)] else [])
  }

  /** The `k`-th selected row is the `k`-th kept row of `d`, cut down to the kept columns. */
  lemma {:induction false} SelectRowsIndex(d: seq<seq<real>>, rows: seq<bool>, cols: seq<bool>)
    requires |rows| == |d|
    requires forall a :: 0 <= a < |d| ==> |d[a]| == |cols|
    ensures forall k :: 0 <= k < CountTrue(rows) ==>
      SelectRows(d, rows, cols)[k] == Select(d[KeptIndices(rows)[k]], cols)
  {
    if |d| > 0 {
      var last := |d| - 1;
      var front := d[..last];
      var rowsFront := rows[..last];
      SelectRowsIndex(front, rowsFront, cols);
      var r := SelectRows(d, rows, cols);
      var f := SelectRows(front, rowsFront, cols);
      var ix := KeptIndices(rows);
      var ixFront := KeptIndices(rowsFront);
      assert r == f + (if rows[last] then [Select(d[last], cols)] else []);
      assert ix == ixFront + (if rows[last] then [last] else []);
      forall k | 0 <= k < CountTrue(rows)
        ensures r[k] == Select(d[ix[k]], cols)
      {
        if k < |f| {
          assert r[k] == f[k] && ix[k] == ixFront[k];
          assert front[ixFront[k]] == d[ixFront[k]];
        }
      }
    }
  }

  /**
   * The block of the samples `sel` keeps, as numpy's `ix_` indexing builds it: a square
   * matrix over the selected samples whose entry `(a, b)` is the distance of the
   * `a`-th and the `b`-th selected sample.
   */
  function SubMatrix(d: seq<seq<real>>, sel: seq<bool>): (r: seq<seq<real>>)
    requires Square(d, |sel|)
    ensures Square(r, CountTrue(sel))
    ensures var ix := KeptIndices(sel);
      forall a, b :: 0 <= a < |r| && 0 <= b < |r| ==> r[a][b] == d[ix[a]][ix[b]]
  {
    var r := SelectRows(d, sel, sel);
    var ix := KeptIndices(sel);
    SelectRowsIndex(d, sel, sel);
    forall a | 0 <= a < |r|
      ensures |r[a]| == |r| && forall b :: 0 <= b < |r| ==> r[a][b] == d[ix[a]][ix[b]]
    {
      SelectIndex(d[ix[a]], sel);
    }
    r
  }

  /** The entries of a matrix in row-major order, as numpy's reductions visit them. */
  function Flatten(m: seq<seq<real>>): seq<real> {
    if |m| == 0 then [] else Flatten(m[..|m| - 1]) + m[|m| - 1]
  }

  lemma FlattenAppendRow(m: seq<seq<real>>, x: seq<real>)
    ensures Flatten(m + [x]) == Flatten(m) + x
  {
    assert (m + [x])[..|m + [x]| - 1] == m;
  }

  lemma RowOffset(a: nat, k: nat, w: nat, b: nat)
    requires a < k && b < w
    ensures a * w + b < k * w
  {
    assert a * w + w == (a + 1) * w;
    assert (a + 1) * w <= k * w;
  }

  lemma NextRowStart(k: nat, w: nat)
    ensures k * w + w == (k + 1) * w
  {
  }

  /**
   * Flattening a matrix whose rows all have `w` entries yields `|m| * w` values
   * with entry `(a, b)` at position `a * w + b`.
   */
  lemma {:induction false} FlattenIndex(m: seq<seq<real>>, w: nat)
    requires forall a :: 0 <= a < |m| ==> |m[a]| == w
    ensures |Flatten(m)| == |m| * w
    ensures forall a, b :: 0 <= a < |m| && 0 <= b < w ==>
      a * w + b < |Flatten(m)| && Flatten(m)[a * w + b] == m[a][b]
  {
    if |m| > 0 {
      var k := |m| - 1;
      var front := m[..k];
      var flat := Flatten(front);
      FlattenIndex(front, w);
      assert Flatten(m) == flat + m[k];
      NextRowStart(k, w);
      forall a, b | 0 <= a < |m| && 0 <= b < w
        ensures a * w + b < |Flatten(m)| && Flatten(m)[a * w + b] == m[a][b]
      {
        if a < k {
          RowOffset(a, k, w, b);
          assert flat[a * w + b] == front[a][b];
        } else {
          assert a * w + b == |flat| + b;
        }
      }
    }
  }

  /** A matrix of zeros flattens to zeros. */
  lemma {:induction false} FlattenZeros(m: seq<seq<real>>)
    requires forall a, b :: 0 <= a < |m| && 0 <= b < |m[a]| ==> m[a][b] == 0.0
    ensures forall i :: 0 <= i < |Flatten(m)| ==> Flatten(m)[i] == 0.0
  {
    if |m| > 0 {
      FlattenZeros(m[..|m| - 1]);
    }
  }

  // ----- blocks inside the whole matrix -----

  /** Dropping values from a sequence cannot add to its squared deviations. */
  lemma {:induction false} SelectDevAtMost(xs: seq<real>, keep: seq<bool>, m: real)
    requires |keep| == |xs|
    ensures Dev(Select(xs, keep), m) <= Dev(xs, m)
  {
    if |xs| > 0 {
      var front := xs[..|xs| - 1];
      var last := xs[|xs| - 1];
      SelectDevAtMost(front, keep[..|keep| - 1], m);
      var kept := if keep[|keep| - 1] then [last] else [];
      DevAppend(Select(front, keep[..|keep| - 1]), kept, m);
    }
  }

  /** Adding a row to the matrix adds its selected entries, if the row is selected. */
  lemma BlockGrowth(front: seq<seq<real>>, rows: seq<bool>, cols: seq<bool>, x: seq<real>, m: real)
    requires |rows| == |front| + 1 && |x| == |cols|
    requires forall a :: 0 <= a < |front| ==> |front[a]| == |cols|
    ensures
      var d := front + [x];
      Dev(Flatten(SelectRows(d, rows, cols)), m)
        == Dev(Flatten(SelectRows(front, rows[..|front|], cols)), m)
           + Dev(if rows[|front|] then Select(x, cols) else [], m)
  {
    var d := front + [x];
    var f := SelectRows(front, rows[..|front|], cols);
    assert d[..|d| - 1] == front;
    var e := if rows[|front|] then Select(x, cols) else [];
    if rows[|front|] {
      assert SelectRows(d, rows, cols) == f + [e];
      FlattenAppendRow(f, e);
    } else {
      assert SelectRows(d, rows, cols) == f;
    }
    DevAppend(Flatten(f), e, m);
  }

  /** Two masks of the same length that never keep the same position. */
  predicate Disjoint(s1: seq<bool>, s2: seq<bool>) {
    |s1| == |s2| && forall i :: 0 <= i < |s1| ==> !(s1[i] && s2[i])
  }

  /**
   * The entries of two blocks on disjoint sets of rows deviate from `m` no more
   * in total than the entries of the whole matrix: each entry of either block is
   * a distinct entry of the matrix.
   */
  lemma {:induction false} DisjointRowsDev(d: seq<seq<real>>, r1: seq<bool>, r2: seq<bool>,
                                          c1: seq<bool>, c2: seq<bool>, m: real)
    requires |r1| == |d| && Disjoint(r1, r2)
    requires forall a :: 0 <= a < |d| ==> |d[a]| == |c1| == |c2|
    ensures Dev(Flatten(SelectRows(d, r1, c1)), m) + Dev(Flatten(SelectRows(d, r2, c2)), m)
         <= Dev(Flatten(d), m)
  {
    if |d| > 0 {
      var k := |d| - 1;
      var front := d[..k];
      var x := d[k];
      var f1 := SelectRows(front, r1[..k], c1);
      var f2 := SelectRows(front, r2[..k], c2);
      DisjointRowsDev(front, r1[..k], r2[..k], c1, c2, m);
      assert Flatten(d) == Flatten(front) + x;
      DevAppend(Flatten(front), x, m);
      var e1 := if r1[k] then Select(x, c1) else [];
      var e2 := if r2[k] then Select(x, c2) else [];
      BlockGrowth(front, r1, c1, x, m);
      BlockGrowth(front, r2, c2, x, m);
      assert Dev(e1, m) + Dev(e2, m) <= Dev(x, m) by {
        SelectDevAtMost(x, c1, m);
        SelectDevAtMost(x, c2, m);
      }
    }
  }


  // ----- the AMOVA statistics -----

  /** The samples labelled `g`, as a mask. */
  function Members(labels: seq<Group>, g: Group): (sel: seq<bool>)
    ensures |sel| == |labels|
    ensures forall i :: 0 <= i < |labels| ==> (sel[i] <==> labels[i] == g)
  {
    seq(|labels|, i requires 0 <= i < |labels| => labels[i] == g)
  }

  /** The sum of squares of a matrix's entries about their mean. */
  function MatrixSS(m: seq<seq<real>>): (ss: real)
    ensures ss >= 0.0
  {
    SS(Flatten(m))
  }

  /** SS_total: the squared deviations of all `n * n` distances from the grand mean. */
  function SSTotal(d: seq<seq<real>>, n: nat): (ss: real)
    requires Square(d, n)
    ensures ss >= 0.0
  {
    MatrixSS(d)
  }

  /**
   * SS_within: for each group, the squared deviations of its block from the
   * block's own mean. A group no sample carries adds nothing, just as the script
   * only visits the groups present.
   */
  function SSWithin(d: seq<seq<real>>, labels: seq<Group>): (ss: real)
    requires Square(d, |labels|)
    ensures ss >= 0.0
  {
    MatrixSS(SubMatrix(d, Members(labels, Grupo1))) + MatrixSS(SubMatrix(d, Members(labels, Grupo2)))
  }

  /** Keeping every row and every column keeps the whole matrix. */
  lemma {:induction false} SelectRowsAll(d: seq<seq<real>>, rows: seq<bool>, cols: seq<bool>)
    requires |rows| == |d|
    requires forall a :: 0 <= a < |d| ==> |d[a]| == |cols|
    requires forall a :: 0 <= a < |rows| ==> rows[a]
    requires forall b :: 0 <= b < |cols| ==> cols[b]
    ensures SelectRows(d, rows, cols) == d
  {
    if |d| > 0 {
      var last := |d| - 1;
      SelectRowsAll(d[..last], rows[..last], cols);
      SelectAll(d[last], cols);
      assert d[..last] + [d[last]] == d;
    }
  }

  /** Keeping no row gives the empty matrix. */
  lemma {:induction false} SelectRowsNone(d: seq<seq<real>>, rows: seq<bool>, cols: seq<bool>)
    requires |rows| == |d|
    requires forall a :: 0 <= a < |d| ==> |d[a]| == |cols|
    requires forall a :: 0 <= a < |rows| ==> !rows[a]
    ensures SelectRows(d, rows, cols) == []
  {
    if |d| > 0 {
      SelectRowsNone(d[..|d| - 1], rows[..|rows| - 1], cols);
    }
  }

  /**
   * When every sample carries the same label, that group's block is the whole
   * matrix and the other block is empty, so SS_within is SS_total: the groups
   * explain nothing.
   */
  lemma OneGroupWithin(d: seq<seq<real>>, labels: seq<Group>, g: Group)
    requires Square(d, |labels|)
    requires forall i :: 0 <= i < |labels| ==> labels[i] == g
    ensures SSWithin(d, labels) == SSTotal(d, |labels|)
  {
    var other := if g == Grupo1 then Grupo2 else Grupo1;
    SelectRowsAll(d, Members(labels, g), Members(labels, g));
    SelectRowsNone(d, Members(labels, other), Members(labels, other));
    assert SubMatrix(d, Members(labels, g)) == d;
    assert SubMatrix(d, Members(labels, other)) == [];
    assert MatrixSS([]) == 0.0;
  }

  /**
   * The within-group sum of squares never exceeds the total: each block's own
   * mean fits it at least as well as the grand mean does, and the two blocks are
   * disjoint parts of the whole matrix.
   */
  lemma WithinAtMostTotal(d: seq<seq<real>>, labels: seq<Group>)
    requires Square(d, |labels|)
    ensures 0.0 <= SSWithin(d, labels) <= SSTotal(d, |labels|)
  {
    var g1 := Members(labels, Grupo1);
    var g2 := Members(labels, Grupo2);
    var gm := Mean(Flatten(d));
    MeanMinimizes(Flatten(SubMatrix(d, g1)), gm);
    MeanMinimizes(Flatten(SubMatrix(d, g2)), gm);
    DisjointRowsDev(d, g1, g2, g1, g2, gm);
  }

  /** If SS_total vanishes and one entry is zero, every entry is zero. */
  lemma ZeroTotalEntries(d: seq<seq<real>>, n: nat)
    requires Square(d, n) && n > 0
    requires d[0][0] == 0.0 && SSTotal(d, n) == 0.0
    ensures forall i, j :: 0 <= i < n && 0 <= j < n ==> d[i][j] == 0.0
  {
    var xs := Flatten(d);
    FlattenIndex(d, n);
    DevZero(xs, Mean(xs));
    assert xs[0 * n + 0] == d[0][0];
    forall i, j | 0 <= i < n && 0 <= j < n
      ensures d[i][j] == 0.0
    {
      assert xs[i * n + j] == d[i][j];
    }
  }

  /**
   * With a zero diagonal, SS_total vanishes exactly when every distance is zero:
   * the diagonal pins the grand mean to zero.
   */
  lemma SSTotalZero(d: seq<seq<real>>, n: nat)
    requires Square(d, n)
    requires forall i :: 0 <= i < n ==> d[i][i] == 0.0
    ensures SSTotal(d, n) == 0.0 <==> forall i, j :: 0 <= i < n && 0 <= j < n ==> d[i][j] == 0.0
  {
    if forall i, j :: 0 <= i < n && 0 <= j < n ==> d[i][j] == 0.0 {
      var xs := Flatten(d);
      FlattenZeros(d);
      SumZeros(xs);
      DevZero(xs, 0.0);
    }
    if SSTotal(d, n) == 0.0 && n > 0 {
      ZeroTotalEntries(d, n);
    }
  }

  /** The outcome of one labelling: `SS_total`, `SS_within`, `SS_between` and ΦST. */
  datatype PartitionResult = PartitionResult(ssTotal: real, ssWithin: real, ssBetween: real, phi: Option<real>)

  /**
   * What every partition satisfies: SS_within lies between zero and SS_total,
   * SS_between makes up the difference, and ΦST is defined exactly when SS_total
   * is positive, in which case it lies in [0, 1] and is SS_between / SS_total.
   */
  predicate Consistent(p: PartitionResult) {
    && 0.0 <= p.ssWithin <= p.ssTotal
    && p.ssBetween >= 0.0 && p.ssBetween + p.ssWithin == p.ssTotal
    && (p.phi.Some? <==> p.ssTotal > 0.0)
    && (p.phi.Some? ==> 0.0 <= p.phi.value <= 1.0 && p.phi.value * p.ssTotal == p.ssBetween)
  }

  /**
   * `SS_between / SS_total`. The script divides without a guard, so for
   * `SS_total == 0` numpy yields NaN; the model writes that NaN as `None`.
   */
  function PhiST(ssTotal: real, ssWithin: real): (phi: Option<real>)
    requires 0.0 <= ssWithin <= ssTotal
    ensures phi.Some? <==> ssTotal != 0.0
    ensures phi.Some? ==> 0.0 <= phi.value <= 1.0
    ensures phi.Some? ==> phi.value * ssTotal == ssTotal - ssWithin
  {
    if ssTotal == 0.0 then None
    else
      QuotientTimesDivisor(ssTotal - ssWithin, ssTotal);
      Some((ssTotal - ssWithin) / ssTotal)
  }

  /**
   * ΦST as the share of SS_total that lies between the groups: `phi * SS_total` is
   * what SS_within leaves of SS_total.
   */
  predicate Explains(phi: real, ssTotal: real, ssWithin: real) {
    phi * ssTotal == ssTotal - ssWithin
  }

  /** A consistent partition's ΦST explains its own sums of squares. */
  lemma ConsistentExplains(p: PartitionResult, total: real, within: real)
    requires Consistent(p) && p.ssTotal == total && p.ssWithin == within
    ensures p.phi.Some? ==> Explains(p.phi.value, total, within)
  {
  }

  /** The partition built from its two sums of squares. */
  function Partitioned(total: real, within: real): (p: PartitionResult)
    requires 0.0 <= within <= total
    ensures p.ssTotal == total && p.ssWithin == within
    ensures Consistent(p)
  {
    PartitionResult(total, within, total - within, PhiST(total, within))
  }

  /** The partition for one labelling, with the sums of squares of that labelling. */
  function Decompose(d: seq<seq<real>>, labels: seq<Group>): (p: PartitionResult)
    requires Square(d, |labels|)
    ensures p.ssTotal == SSTotal(d, |labels|) && p.ssWithin == SSWithin(d, labels)
    ensures Consistent(p)
  {
    WithinAtMostTotal(d, labels);
    Partitioned(SSTotal(d, |labels|), SSWithin(d, labels))
  }

  /** With a single group, ΦST is zero whenever it is defined. */
  lemma OneGroupPhiZero(d: seq<seq<real>>, labels: seq<Group>, g: Group)
    requires Square(d, |labels|)
    requires forall i :: 0 <= i < |labels| ==> labels[i] == g
    ensures Decompose(d, labels).phi.Some? ==> Decompose(d, labels).phi.value == 0.0
  {
    var p := Decompose(d, labels);
    OneGroupWithin(d, labels, g);
    DecomposeExplains(d, labels);
    if p.phi.Some? {
      ZeroProduct(p.phi.value, p.ssTotal);
    }
  }

  lemma ZeroProduct(x: real, y: real)
    requires y != 0.0 && x * y == 0.0
    ensures x == 0.0
  {
  }

  /** The ΦST of a labelling explains that labelling's SS_total and SS_within. */
  lemma DecomposeExplains(d: seq<seq<real>>, labels: seq<Group>)
    requires Square(d, |labels|)
    ensures Decompose(d, labels).phi.Some? ==>
      Explains(Decompose(d, labels).phi.value, SSTotal(d, |labels|), SSWithin(d, labels))
  {
    ConsistentExplains(Decompose(d, labels), SSTotal(d, |labels|), SSWithin(d, labels));
  }

}

=== FILE: permutation.dfy ===
/**
 * The permutation test of the AMOVA script. numpy's random permutation is a
 * Fisher-Yates shuffle: for `i` from the last position down, the label at `i` is
 * swapped with the one at a drawn position `j <= i`. The draws come from the
 * seeded generator; the model takes them as input. Every permuted labelling is
 * scored with the same SS_total, and the p-value is the share of permuted ΦST
 * values at least as large as the observed one.
 */
module Permutation {
  import opened Wrappers
  import opened Masks
  import opened Sums
  import opened Distance
  import opened Groups
  import opened Partition

  /** The labels with the entries at `i` and `j` exchanged. */
  function Swap(s: seq<Group>, i: nat, j: nat): (r: seq<Group>)
    requires i < |s| && j < |s|
    ensures |r| == |s|
    ensures r[i] == s[j] && r[j] == s[i]
    ensures forall k :: 0 <= k < |s| && k != i && k != j ==> r[k] == s[k]
    ensures multiset(r) == multiset(s)
  {
    s[i := s[j]][j := s[i]]
  }

  /** One draw per position, the draw for position `i` at most `i`. */
  predicate ValidDraws(draws: seq<nat>, n: nat) {
    |draws| == n && forall i :: 0 <= i < n ==> draws[i] <= i
  }

  /** The Fisher-Yates steps for positions `k - 1` down to `0`. */
  function ShuffleSteps(s: seq<Group>, draws: seq<nat>, k: nat): (r: seq<Group>)
    requires ValidDraws(draws, |s|) && k <= |s|
    ensures |r| == |s|
    ensures multiset(r) == multiset(s)
    decreases k
  {
    if k == 0 then s
    else ShuffleSteps(Swap(s, k - 1, draws[k - 1]), draws, k - 1)
  }

  /** The random permutation of the labels for the given draws: the same labels in a new order. */
  function Shuffle(labels: seq<Group>, draws: seq<nat>): (r: seq<Group>)
    requires ValidDraws(draws, |labels|)
    ensures |r| == |labels|
    ensures multiset(r) == multiset(labels)
  {
    ShuffleSteps(labels, draws, |labels|)
  }

  /** Draws that swap every position with itself leave the labels where they are. */
  lemma {:induction false} IdentityDraws(s: seq<Group>, draws: seq<nat>, k: nat)
    requires ValidDraws(draws, |s|) && k <= |s|
    requires forall i :: 0 <= i < |s| ==> draws[i] == i
    ensures ShuffleSteps(s, draws, k) == s
  {
    if k > 0 {
      assert Swap(s, k - 1, k - 1) == s;
      IdentityDraws(s, draws, k - 1);
    }
  }

  /** The number of samples in group `g` is the number of times `g` occurs among the labels. */
  lemma {:induction false} MembersCount(labels: seq<Group>, g: Group)
    ensures CountTrue(Members(labels, g)) == multiset(labels)[g]
  {
    if |labels| > 0 {
      var front := labels[..|labels| - 1];
      MembersCount(front, g);
      assert Members(labels, g)[..|labels| - 1] == Members(front, g);
      assert labels == front + [labels[|labels| - 1]];
    }
  }

  /** A shuffle keeps the size of every group, so the permuted blocks have the true blocks' sizes. */
  lemma ShuffleKeepsGroupSizes(labels: seq<Group>, draws: seq<nat>, g: Group)
    requires ValidDraws(draws, |labels|)
    ensures CountTrue(Members(Shuffle(labels, draws), g)) == CountTrue(Members(labels, g))
  {
    MembersCount(labels, g);
    MembersCount(Shuffle(labels, draws), g);
  }

  /**
   * The ΦST of one permuted labelling: the same distance matrix and so the same
   * SS_total, with only SS_within recomputed for the shuffled labels.
   */
  function PermutedPhi(d: seq<seq<real>>, labels: seq<Group>, draws: seq<nat>): (phi: Option<real>)
    requires Square(d, |labels|) && ValidDraws(draws, |labels|)
    ensures phi.Some? <==> SSTotal(d, |labels|) > 0.0
    ensures phi.Some? ==> 0.0 <= phi.value <= 1.0
    ensures phi.Some? ==> Explains(phi.value, SSTotal(d, |labels|), SSWithin(d, Shuffle(labels, draws)))
  {
    DecomposeExplains(d, Shuffle(labels, draws));
    Decompose(d, Shuffle(labels, draws)).phi
  }

  /** The ΦST of each permuted labelling, in order. */
  function PermutedStats(d: seq<seq<real>>, labels: seq<Group>, draws: seq<seq<nat>>): (stats: seq<Option<real>>)
    requires Square(d, |labels|)
    requires forall p :: 0 <= p < |draws| ==> ValidDraws(draws[p], |labels|)
    ensures |stats| == |draws|
    ensures forall p :: 0 <= p < |draws| ==> stats[p] == PermutedPhi(d, labels, draws[p])
  {
    seq(|draws|, p requires 0 <= p < |draws| => PermutedPhi(d, labels, draws[p]))
  }

  /** The float comparison "at least": any comparison with NaN is false. */
  predicate AtLeast(stat: Option<real>, observed: Option<real>) {
    stat.Some? && observed.Some? && stat.value >= observed.value
  }

  /** The number of statistics at least as large as the observed one. */
  function CountAtLeast(stats: seq<Option<real>>, observed: Option<real>): (c: nat)
    ensures c <= |stats|
    ensures c == |stats| <==> forall p :: 0 <= p < |stats| ==> AtLeast(stats[p], observed)
    ensures c == 0 <==> forall p :: 0 <= p < |stats| ==> !AtLeast(stats[p], observed)
  {
    if |stats| == 0 then 0
    else
      var front := stats[..|stats| - 1];
      assert forall p :: 0 <= p < |front| ==> front[p] == stats[p];
      CountAtLeast(front, observed) + (if AtLeast(stats[|stats| - 1], observed) then 1 else 0)
  }

  /** The count over two runs of permutations is the sum of their counts. */
  lemma {:induction false} CountAtLeastAppend(s: seq<Option<real>>, t: seq<Option<real>>, observed: Option<real>)
    ensures CountAtLeast(s + t, observed) == CountAtLeast(s, observed) + CountAtLeast(t, observed)
  {
    if |t| == 0 {
      assert s + t == s;
    } else {
      var front := t[..|t| - 1];
      CountAtLeastAppend(s, front, observed);
      assert (s + t)[..|s + t| - 1] == s + front;
    }
  }

  /** A single permuted value is counted exactly when it reaches the observed one. */
  lemma CountAtLeastOne(stat: Option<real>, observed: Option<real>)
    ensures CountAtLeast([stat], observed) == if AtLeast(stat, observed) then 1 else 0
  {
    assert [stat][..0] == [];
  }

  /**
   * The p-value, the mean of the comparisons: the number of permuted values that reach
   * the observed one per permutation, a share in [0, 1], equal to 1 exactly when
   * every permuted value reaches the observed one and to 0 exactly when none does;
   * an undefined observed ΦST is reached by nothing.
   */
  function PValue(stats: seq<Option<real>>, observed: Option<real>): (p: real)
    requires |stats| > 0
    ensures Scale(|stats|, p) == CountAtLeast(stats, observed) as real
    ensures 0.0 <= p <= 1.0
    ensures p == 1.0 <==> forall k :: 0 <= k < |stats| ==> AtLeast(stats[k], observed)
    ensures p == 0.0 <==> forall k :: 0 <= k < |stats| ==> !AtLeast(stats[k], observed)
    ensures observed.None? ==> p == 0.0
  {
    var c := CountAtLeast(stats, observed);
    var n := |stats|;
    assert c as real <= n as real;
    QuotientBounds(c as real, n as real);
    ScaleQuotient(c, n);
    c as real / n as real
  }

  /** `n` copies of `c / n` add up to `c`. */
  lemma ScaleQuotient(c: nat, n: nat)
    requires n > 0
    ensures Scale(n, c as real / n as real) == c as real
  {
    QuotientTimesDivisor(c as real, n as real);
  }

  /** Scaling by a positive factor keeps order and equality. */
  lemma ScaleOrder(n: real, a: real, b: real)
    requires n > 0.0
    ensures a < b <==> n * a < n * b
    ensures a == b <==> n * a == n * b
  {
    if a < b {
      assert n * b - n * a == n * (b - a);
    } else {
      assert n * a - n * b == n * (a - b);
    }
  }

  lemma QuotientBounds(c: real, n: real)
    requires 0.0 <= c <= n && n > 0.0
    ensures 0.0 <= c / n <= 1.0
    ensures c / n == 1.0 <==> c == n
    ensures c / n == 0.0 <==> c == 0.0
  {
    var q := c / n;
    QuotientTimesDivisor(c, n);
    ScaleOrder(n, q, 1.0);
    ScaleOrder(n, 0.0, q);
  }
}

=== FILE: structure_rows.dfy ===
/**
 * The STRUCTURE layout shared by both converters: two lines per sample, each
 * the sample name, four zero columns and the population id "1", followed by one
 * allele per locus: the first line carries the first alleles, the second line
 * the second ones.
 */
module StructureRows {

  /** The population every sample is assigned to. */
  const PopId: string := "1"

  /** STRUCTURE's missing-allele code, shared by both converters. */
  const MissingAllele: string := "-9"

  /** The six metadata fields of a line: the sample name, four zero fields and the population id. */
  function Meta(sample: string): (m: seq<string>)
    ensures |m| == 6 && m[0] == sample
    ensures forall k :: 1 <= k < 5 ==> m[k] == "0"
    ensures m[5] == PopId
  {
    [sample, "0", "0", "0", "0", PopId]
  }

  /**
   * All output lines: for sample `j`, row `2j` is its metadata and first alleles and
   * row `2j + 1` its metadata and second alleles.
   */
  function EmitRows(samples: seq<string>, first: seq<seq<string>>, second: seq<seq<string>>): (r: seq<seq<string>>)
    requires |first| == |samples| && |second| == |samples|
    ensures |r| == 2 * |samples|
    ensures forall j :: 0 <= j < |samples| ==>
      r[2 * j] == Meta(samples[j]) + first[j] && r[2 * j + 1] == Meta(samples[j]) + second[j]
  {
    if |samples| == 0 then []
    else
      var k := |samples| - 1;
      var front := EmitRows(samples[..k], first[..k], second[..k]);
      front + [Meta(samples[k]) + first[k], Meta(samples[k]) + second[k]]
  }

  /** The sample a row belongs to. */
  function RowSample(row: seq<string>): string
    requires |row| >= 6
  {
    row[0]
  }

  /** The alleles of a row, after the six metadata columns. */
  function RowAlleles(row: seq<string>): seq<string>
    requires |row| >= 6
  {
    row[6..]
  }

  /**
   * Reading the rows back: row `k` belongs to sample `k / 2`, and its alleles are
   * that sample's first alleles on even rows and its second ones on odd rows.
   */
  lemma ReadBack(samples: seq<string>, first: seq<seq<string>>, second: seq<seq<string>>, k: nat)
    requires |first| == |samples| && |second| == |samples| && k < 2 * |samples|
    ensures var r := EmitRows(samples, first, second);
      && |r[k]| >= 6
      && RowSample(r[k]) == samples[k / 2]
      && RowAlleles(r[k]) == (if k % 2 == 0 then first else second)[k / 2]
  {
    var r := EmitRows(samples, first, second);
    var j := k / 2;
    if k % 2 == 0 {
      assert k == 2 * j;
      assert r[k] == Meta(samples[j]) + first[j];
    } else {
      assert k == 2 * j + 1;
      assert r[k] == Meta(samples[j]) + second[j];
    }
  }
}

=== FILE: sums.dfy ===
/**
 * Exact real sums shared by the imputation and the variance partition: `np.sum`,
 * `np.mean` and sums of squared deviations.
 */
module Sums {

  function Sq(x: real): (r: real)
    ensures r >= 0.0
  {
    x * x
  }

  lemma SqPositive(x: real)
    requires x != 0.0
    ensures Sq(x) > 0.0
  {
    if x > 0.0 {
      calc { Sq(x); == x * x; > 0.0 * x; }
    } else {
      calc { Sq(x); == (-x) * (-x); > 0.0 * (-x); }
    }
  }

  lemma SqDifferenceSymmetric(a: real, b: real)
    ensures Sq(a - b) == Sq(b - a)
  {
  }

  function Sum(xs: seq<real>): real {
    if |xs| == 0 then 0.0 else Sum(xs[..|xs| - 1]) + xs[|xs| - 1]
  }

  function SqSum(xs: seq<real>): real {
    if |xs| == 0 then 0.0 else SqSum(xs[..|xs| - 1]) + Sq(xs[|xs| - 1])
  }

  /** `k` copies of `x` added up. */
  function Scale(k: nat, x: real): real {
    k as real * x
  }

  lemma ScaleStep(k: nat, x: real)
    ensures Scale(k + 1, x) == Scale(k, x) + x
  {
  }

  /**
   * `np.mean`: the value whose one copy per element adds up to the sum. The empty
   * sequence, whose deviations are all absent, gets 0.
   */
  function Mean(xs: seq<real>): (m: real)
    ensures |xs| > 0 ==> Scale(|xs|, m) == Sum(xs)
  {
    if |xs| == 0 then 0.0
    else
      QuotientTimesDivisor(Sum(xs), |xs| as real);
      Sum(xs) / |xs| as real
  }

  /** `n` equal values add up to `n` times that value. */
  lemma {:induction false} SumConstant(xs: seq<real>, c: real)
    requires forall i :: 0 <= i < |xs| ==> xs[i] == c
    ensures Sum(xs) == Scale(|xs|, c)
  {
    if |xs| > 0 {
      var k := |xs| - 1;
      SumConstant(xs[..k], c);
      ScaleStep(k, c);
    }
  }

  /** The mean of a non-empty run of equal values is that value. */
  lemma MeanConstant(xs: seq<real>, c: real)
    requires |xs| > 0
    requires forall i :: 0 <= i < |xs| ==> xs[i] == c
    ensures Mean(xs) == c
  {
    SumConstant(xs, c);
    ProductOverFactor(Sum(xs), |xs| as real, c);
  }

  /** The squared deviations of `xs` from the centre `m`. */
  function Dev(xs: seq<real>, m: real): (r: real)
    ensures r >= 0.0
  {
    if |xs| == 0 then 0.0 else Dev(xs[..|xs| - 1], m) + Sq(xs[|xs| - 1] - m)
  }

  /** The sum of squares of `xs` about its own mean. */
  function SS(xs: seq<real>): (r: real)
    ensures r >= 0.0
  {
    Dev(xs, Mean(xs))
  }

  lemma QuotientTimesDivisor(s: real, w: real)
    requires w != 0.0
    ensures s == w * (s / w)
  {
  }

  lemma ProductOverFactor(t: real, w: real, m: real)
    requires w != 0.0 && t == w * m
    ensures t / w == m
  {
  }

  /** Squared deviations add up over a concatenation. */
  lemma {:induction false} DevAppend(xs: seq<real>, ys: seq<real>, m: real)
    ensures Dev(xs + ys, m) == Dev(xs, m) + Dev(ys, m)
  {
    if |ys| == 0 {
      assert xs + ys == xs;
    } else {
      var front := ys[..|ys| - 1];
      DevAppend(xs, front, m);
      assert (xs + ys)[..|xs + ys| - 1] == xs + front;
    }
  }

  /** The squared deviations from `m` of `c` values whose sum is `s` and sum of squares is `q`. */
  function Expanded(q: real, s: real, c: real, m: real): real {
    q - 2.0 * m * s + c * Sq(m)
  }

  lemma ExpandStep(q: real, s: real, c: real, x: real, m: real)
    ensures Expanded(q, s, c, m) + Sq(x - m) == Expanded(q + Sq(x), s + x, c + 1.0, m)
  {
  }

  /** The squared deviations from `m` in terms of the sum of squares, the sum and the length. */
  lemma {:induction false} DevExpand(xs: seq<real>, m: real)
    ensures Dev(xs, m) == Expanded(SqSum(xs), Sum(xs), |xs| as real, m)
  {
    if |xs| > 0 {
      var front := xs[..|xs| - 1];
      DevExpand(front, m);
      ExpandStep(SqSum(front), Sum(front), |front| as real, xs[|xs| - 1], m);
    }
  }

  /** Of all centres, `s / c` gives the least expanded squared deviation. */
  lemma ExpandedMinimum(q: real, s: real, c: real, m: real)
    requires c > 0.0
    ensures Expanded(q, s, c, s / c) <= Expanded(q, s, c, m)
  {
    var mu := s / c;
    QuotientTimesDivisor(s, c);
    calc {
      Expanded(q, s, c, m) - Expanded(q, s, c, mu);
      ==
      c * (Sq(m) - 2.0 * m * mu + Sq(mu));
      ==
      c * Sq(m - mu);
      >=
      0.0;
    }
  }

  /** The mean is the centre with the least squared deviation. */
  lemma MeanMinimizes(xs: seq<real>, m: real)
    ensures SS(xs) <= Dev(xs, m)
  {
    if |xs| > 0 {
      DevExpand(xs, m);
      DevExpand(xs, Mean(xs));
      ExpandedMinimum(SqSum(xs), Sum(xs), |xs| as real, m);
    }
  }

  /** A sequence has no squared deviation from `m` exactly when every element equals `m`. */
  lemma {:induction false} DevZero(xs: seq<real>, m: real)
    ensures Dev(xs, m) == 0.0 <==> forall i :: 0 <= i < |xs| ==> xs[i] == m
  {
    if |xs| > 0 {
      var last := |xs| - 1;
      var front := xs[..last];
      DevZero(front, m);
      var x := xs[last] - m;
      assert Dev(xs, m) == Dev(front, m) + Sq(x);
      if x != 0.0 {
        SqPositive(x);
        assert xs[last] != m;
      } else {
        assert Dev(xs, m) == Dev(front, m);
        assert forall i :: 0 <= i < |front| ==> front[i] == xs[i];
      }
    }
  }

  /** A sequence of zeros sums to zero. */
  lemma {:induction false} SumZeros(xs: seq<real>)
    requires forall i :: 0 <= i < |xs| ==> xs[i] == 0.0
    ensures Sum(xs) == 0.0
  {
    if |xs| > 0 {
      SumZeros(xs[..|xs| - 1]);
    }
  }
}

=== FILE: table.dfy ===
/**
 * The already-parsed CSV: a header of column names and one row per line, holding
 * one cell per column. A cell is `None` where the file had the missing marker "-".
 * The AMOVA script skips the first column, whatever its name; the STRUCTURE
 * converters skip every column named "Mark" and read all other columns as samples.
 */
module Table {
  import opened Wrappers
  import opened Masks

  datatype Table<T> = Table(header: seq<string>, rows: seq<seq<Option<T>>>)

  /** pandas gives every row one cell per column. */
  predicate WellFormed<T>(t: Table<T>) {
    forall l :: 0 <= l < |t.rows| ==> |t.rows[l]| == |t.header|
  }

  /** The name of the marker column that the STRUCTURE converters drop. */
  const MarkColumn: string := "Mark"

  /** The columns not named "Mark", as positions of the header, in their original order. */
  function NonMarkColumns(header: seq<string>): (cols: seq<nat>)
    ensures StrictlyIncreasing(cols)
    ensures forall k :: 0 <= k < |cols| ==> cols[k] < |header| && header[cols[k]] != MarkColumn
    ensures forall i :: 0 <= i < |header| && header[i] != MarkColumn ==> i in cols
  {
    KeptIndices(seq(|header|, i requires 0 <= i < |header| => header[i] != MarkColumn))
  }

  /** `df.columns[1:]`, as positions of the header: every column but the first, whatever its name. */
  function AfterFirstColumn(header: seq<string>): (cols: seq<nat>)
    ensures |cols| == if |header| == 0 then 0 else |header| - 1
    ensures forall k :: 0 <= k < |cols| ==> cols[k] == k + 1 && cols[k] < |header|
  {
    seq(if |header| == 0 then 0 else |header| - 1, k => k + 1)
  }

  /** The names of the given columns. */
  function Names(header: seq<string>, cols: seq<nat>): (names: seq<string>)
    requires forall k :: 0 <= k < |cols| ==> cols[k] < |header|
    ensures |names| == |cols|
    ensures forall k :: 0 <= k < |cols| ==> names[k] == header[cols[k]]
  {
    seq(|cols|, k requires 0 <= k < |cols| => header[cols[k]])
  }

  /** The grid restricted to the given columns, one row per line. */
  function Project<T>(t: Table<T>, cols: seq<nat>): (g: seq<seq<Option<T>>>)
    requires WellFormed(t)
    requires forall k :: 0 <= k < |cols| ==> cols[k] < |t.header|
    ensures |g| == |t.rows|
    ensures forall l :: 0 <= l < |g| ==> |g[l]| == |cols|
    ensures forall l, k :: 0 <= l < |g| && 0 <= k < |cols| ==> g[l][k] == t.rows[l][cols[k]]
  {
    seq(|t.rows|, l requires 0 <= l < |t.rows| =>
      seq(|cols|, k requires 0 <= k < |cols| => t.rows[l][cols[k]]))
  }

  /** Some cell of the row is not missing. */
  predicate Observed<T>(row: seq<Option<T>>) {
    exists j :: 0 <= j < |row| && row[j].Some?
  }

  /** Which rows have at least one observed cell. */
  function ObservedMask<T>(rows: seq<seq<Option<T>>>): (keep: seq<bool>)
    ensures |keep| == |rows|
    ensures forall l :: 0 <= l < |rows| ==> (keep[l] <==> Observed(rows[l]))
  {
    seq(|rows|, l requires 0 <= l < |rows| => Observed(rows[l]))
  }

  /**
   * The all-missing row filter: drops every row missing in all of its cells. Exactly the
   * rows with an observed cell remain, in their original order, so the row count
   * never grows.
   */
  function DropMissingRows<T>(g: seq<seq<Option<T>>>): (kept: seq<seq<Option<T>>>)
    ensures |kept| == CountTrue(ObservedMask(g)) <= |g|
    ensures forall k :: 0 <= k < |kept| ==> Observed(kept[k])
    ensures forall l :: 0 <= l < |g| && Observed(g[l]) ==> g[l] in kept
    ensures forall k :: 0 <= k < |kept| ==> kept[k] == g[KeptIndices(ObservedMask(g))[k]]
  {
    SelectMembers(g, ObservedMask(g));
    SelectIndex(g, ObservedMask(g));
    Select(g, ObservedMask(g))
  }
}

=== FILE: two_row.dfy ===
/**
 * The two-row-to-STRUCTURE converter: each locus occupies two consecutive rows,
 * the first holding every sample's first allele and the second its second
 * allele. Samples are all columns not named "Mark"; a locus is kept when some
 * sample has an allele on either of its rows; alleles are written as integers,
 * missing ones as "-9".
 */
module TwoRow {
  import opened Wrappers
  import opened Decimal
  import opened Masks
  import opened Table
  import opened StructureRows

  /** The file has an odd number of rows, so its rows do not pair up into loci. */
  datatype ConvertError = OddRowCount(rows: nat)

  /** The first-allele rows: the rows at even positions. */
  function Evens<T>(rows: seq<T>): (r: seq<T>)
    ensures |r| == (|rows| + 1) / 2
    ensures forall k :: 0 <= k < |r| ==> r[k] == rows[2 * k]
  {
    seq((|rows| + 1) / 2, k requires 0 <= k < (|rows| + 1) / 2 => rows[2 * k])
  }

  /** The second-allele rows: the rows at odd positions. */
  function Odds<T>(rows: seq<T>): (r: seq<T>)
    ensures |r| == |rows| / 2
    ensures forall k :: 0 <= k < |r| ==> r[k] == rows[2 * k + 1]
  {
    seq(|rows| / 2, k requires 0 <= k < |rows| / 2 => rows[2 * k + 1])
  }

  /** The two-row layout of loci given as first-allele and second-allele rows. */
  function Interleave<T>(first: seq<T>, second: seq<T>): (rows: seq<T>)
    requires |first| == |second|
    ensures |rows| == 2 * |first|
    ensures forall k :: 0 <= k < |first| ==> rows[2 * k] == first[k] && rows[2 * k + 1] == second[k]
  {
    if |first| == 0 then []
    else Interleave(first[..|first| - 1], second[..|second| - 1]) + [first[|first| - 1], second[|second| - 1]]
  }

  /** Splitting an even number of rows into allele rows loses nothing: interleaving them rebuilds the file. */
  lemma SplitInterleave<T>(rows: seq<T>)
    requires |rows| % 2 == 0
    ensures |Evens(rows)| == |Odds(rows)|
    ensures Interleave(Evens(rows), Odds(rows)) == rows
  {
    var r := Interleave(Evens(rows), Odds(rows));
    forall i | 0 <= i < |rows|
      ensures r[i] == rows[i]
    {
      var k := i / 2;
      if i % 2 == 0 {
        assert i == 2 * k && k < |Evens(rows)|;
        assert r[2 * k] == Evens(rows)[k];
      } else {
        assert i == 2 * k + 1 && k < |Odds(rows)|;
        assert r[2 * k + 1] == Odds(rows)[k];
      }
    }
  }

  /** Interleaving and splitting again gives back both allele rows. */
  lemma InterleaveSplit<T>(first: seq<T>, second: seq<T>)
    requires |first| == |second|
    ensures Evens(Interleave(first, second)) == first
    ensures Odds(Interleave(first, second)) == second
  {
  }

  /** `valid_mask.any(axis=1)`: a locus is kept when either of its rows has an allele. */
  function LocusMask(allele1: seq<seq<Option<real>>>, allele2: seq<seq<Option<real>>>): (keep: seq<bool>)
    requires |allele1| == |allele2|
    ensures |keep| == |allele1|
    ensures forall l :: 0 <= l < |allele1| ==> (keep[l] <==> Observed(allele1[l]) || Observed(allele2[l]))
  {
    seq(|allele1|, l requires 0 <= l < |allele1| => Observed(allele1[l]) || Observed(allele2[l]))
  }

  /** One allele as written: "-9" when missing, otherwise `str(int(v))`. */
  function Render(cell: Option<real>): (s: string)
    ensures cell.None? ==> s == MissingAllele
    ensures cell.Some? ==> s == IntToString(Trunc(cell.value))
  {
    match cell
    case None => MissingAllele
    case Some(v) => IntToString(Trunc(v))
  }

  /** A written allele reads back as the truncated value; only a missing allele and the value -9 share a text. */
  lemma RenderParse(cell: Option<real>)
    ensures cell.Some? ==> ParseInt(Render(cell)) == Some(Trunc(cell.value))
    ensures Render(cell) == MissingAllele <==> cell.None? || Trunc(cell.value) == -9
  {
    if cell.Some? {
      ParseIntToString(Trunc(cell.value));
      if Render(cell) == MissingAllele {
        assert IntToString(-9) == MissingAllele;
        IntToStringInjective(Trunc(cell.value), -9);
      }
    }
  }

  /** The alleles of sample `j` over the loci, in order. */
  function AlleleLine(rows: seq<seq<Option<real>>>, j: nat): (line: seq<string>)
    requires forall l :: 0 <= l < |rows| ==> j < |rows[l]|
    ensures |line| == |rows| && forall l :: 0 <= l < |rows| ==> line[l] == Render(rows[l][j])
  {
    seq(|rows|, l requires 0 <= l < |rows| => Render(rows[l][j]))
  }

  /** The first- and second-allele rows of the kept loci, paired as in the file. */
  datatype Alleles = Alleles(first: seq<seq<Option<real>>>, second: seq<seq<Option<real>>>)

  /** Allele rows paired locus by locus, every row with one cell per sample. */
  predicate Paired(a: Alleles, n: nat) {
    && |a.first| == |a.second|
    && (forall k :: 0 <= k < |a.first| ==> |a.first[k]| == n)
    && (forall k :: 0 <= k < |a.second| ==> |a.second[k]| == n)
  }

  /**
   * The allele rows of the kept loci: one pair of rows per locus with an allele
   * anywhere, in file order, the same mask applied to both rows so the pairs stay
   * together; an odd row count is an error.
   */
  function KeptAlleles(t: Table<real>): (r: Result<Alleles, ConvertError>)
    requires WellFormed(t)
    ensures r.Failure? <==> |t.rows| % 2 != 0
    ensures r.Failure? ==> r.error == OddRowCount(|t.rows|)
    ensures r.Success? ==> Paired(r.value, |NonMarkColumns(t.header)|)
    ensures r.Success? ==>
      var g := Project(t, NonMarkColumns(t.header));
      var keep := LocusMask(Evens(g), Odds(g));
      var ix := KeptIndices(keep);
      && |r.value.first| == |r.value.second| == |ix| <= |t.rows| / 2
      && forall k :: 0 <= k < |ix| ==>
           && r.value.first[k] == g[2 * ix[k]] && r.value.second[k] == g[2 * ix[k] + 1]
           && (Observed(r.value.first[k]) || Observed(r.value.second[k]))
  {
    if |t.rows| % 2 != 0 then Failure(OddRowCount(|t.rows|))
    else
      var g := Project(t, NonMarkColumns(t.header));
      var allele1 := Evens(g);
      var allele2 := Odds(g);
      var keep := LocusMask(allele1, allele2);
      SelectIndex(allele1, keep);
      SelectIndex(allele2, keep);
      Success(Alleles(Select(allele1, keep), Select(allele2, keep)))
  }

  /** The `.str` rows of the samples `names` from paired allele rows. */
  function Emit(names: seq<string>, kept: Alleles): (rows: seq<seq<string>>)
    requires Paired(kept, |names|)
    ensures |rows| == 2 * |names|
    ensures forall j :: 0 <= j < |names| ==>
      && rows[2 * j] == Meta(names[j]) + AlleleLine(kept.first, j)
      && rows[2 * j + 1] == Meta(names[j]) + AlleleLine(kept.second, j)
  {
    var first := seq(|names|, j requires 0 <= j < |names| => AlleleLine(kept.first, j));
    var second := seq(|names|, j requires 0 <= j < |names| => AlleleLine(kept.second, j));
    EmitRows(names, first, second)
  }

  /**
   * The rows of the `.str` file, or the odd-row-count error: two rows per
   * non-"Mark" column, in column order; row `2j` holds sample `j`'s first
   * alleles at the kept loci and row `2j + 1` its second ones.
   */
  function Convert(t: Table<real>): (r: Result<seq<seq<string>>, ConvertError>)
    requires WellFormed(t)
    ensures r.Failure? <==> |t.rows| % 2 != 0
    ensures r.Success? ==>
      var cols := NonMarkColumns(t.header);
      var kept := KeptAlleles(t).value;
      && |r.value| == 2 * |cols|
      && forall j :: 0 <= j < |cols| ==>
           && r.value[2 * j] == Meta(t.header[cols[j]]) + AlleleLine(kept.first, j)
           && r.value[2 * j + 1] == Meta(t.header[cols[j]]) + AlleleLine(kept.second, j)
  {
    match KeptAlleles(t)
    case Failure(e) => Failure(e)
    case Success(kept) =>
      Success(Emit(Names(t.header, NonMarkColumns(t.header)), kept))
  }
}

=== FILE: wrappers.dfy ===
/** Failure-carrying values shared by every stage of the pipelines. */
module Wrappers {

  /** A cell or value that may be absent: a missing genotype, an undefined ratio. */
  datatype Option<+T> = None | Some(value: T) {

    /** The value, or `default` when absent. */
    function GetOr(default: T): T {
      match this
      case Some(v) => v
      case None => default
    }
  }

  /** The outcome of a step that the scripts abort with a `ValueError`. */
  datatype Result<+R, +E> = Success(value: R) | Failure(error: E)
}
